=== FILE: README.md ===
# doc81 core, modelled in Dafny

doc81 turns markdown documents into reusable templates. It also offers a web front end to browse
templates and to edit and enhance markdown. This project models the parts of it that hold logic:

- **The templatifier** (`templatify.py`). It walks the markdown AST and replaces content with
  numbered placeholder tokens: `[Paragraph 1]`, `{{Item 2}}`, or a fenced `[Code 1]`. Each
  token type has its own counter, threaded through a pre-order traversal. Headings can be
  pruned in outline mode. The model takes the parsed AST as a `Node` datatype. It stops at
  the rewritten tree. `Pruned` stands for the Python `None` that a pruned heading leaves
  behind. Reading the numbers back off the output gives 1, 2, ..., N for each type, in
  document order.
- **The react-query keys** (`use-templates.ts`). A key is a sequence of parts that extends
  `["templates"]`. The two read hooks choose their key and their `enabled` flag from these.
- **The template carousel** (`template-carousel.tsx`). It covers:
  - the hover state that pauses autoplay;
  - the autoplay effect as React runs it, where cleanup comes before each re-run and at unmount,
    and the embla API can appear and, when the loading or empty branch drops the viewport,
    go away again;
  - the preview truncation, which counts UTF-16 code units as JavaScript does;
  - the company-logo lookup for tags.
- **The markdown canvas** (`markdown-canvas.tsx`). It covers:
  - the local buffer that mirrors every edit to the parent;
  - the `[initialContent]` sync;
  - the `isGenerating` flag around the generate call, where the call's outcome is an input;
  - the footer counts.
- **The landing page** (`page.tsx`). It covers:
  - the submit gate on trimmed content;
  - the file-acceptance test;
  - first-file-only drops and the drag flag;
  - the wiring to the canvas, proved over arbitrary event sequences.

The string operations the source relies on are written out in their own modules: JavaScript's
`length` and `substring` on UTF-16 code units, `endsWith`, `replace` with a string pattern,
`toLowerCase`, `trim` and `split`, and Python's `str(int)` and `capitalize`.

The modelled files contain no placeholder extractor for `{{name}}` (the template detail page
has one, and it is not modelled), no request controller that supersedes stale requests by
token, and no carousel scheduler with a rotation index. The code writes no cache of its own:
fetching, caching and the deduplication of requests in flight are react-query's, and scrolling
is the embla carousel's. In the canvas, the generate call is a react-query mutation awaited
without a `catch`. The model therefore proves what the code does:

- A disabled button keeps at most one generate request outstanding.
- A rejected request leaves the button disabled for good (`MarkdownCanvas.RejectionSticks`,
  `LandingPage.RejectionDisablesForever`).
- The effect's cleanup keeps at most one interval alive (`TemplateCarousel.AtMostOneTimer`).

## Model

| member | source | states |
|---|---|---|
| MarkdownTemplatify.MakeToken | src/doc81/service/templatify.py:96-118 | the type's counter starts from 0 and goes up by exactly one; every other counter is unchanged; the token carries the counter after the increment |
| MarkdownTemplatify.TokenText | src/doc81/service/templatify.py:102-111 | `Code` is always the fenced `[Code n]`; otherwise the label is in double braces for the curly style and in square brackets for the bracket style |
| MarkdownTemplatify.Rewrite | src/doc81/service/templatify.py:56-93 | the result is `None` exactly for a heading deeper than 3 in outline mode; a kept node keeps its type or becomes a token (`block_text`); a kept node other than a blank line is the same node (level, raw text) with only its children replaced, one per original child; no counter goes down |
| MarkdownTemplatify.RewriteAll | src/doc81/service/templatify.py:63 | children are rewritten one for one, and counters only grow |
| MarkdownTemplatify.ListChildren | src/doc81/service/templatify.py:73-78 | a list keeps its length; non-item children are kept untouched; no item survives; the `Item` counter rises by exactly the number of items and no other counter moves |
| MarkdownTemplatify.Templatify | src/doc81/service/templatify.py:46-52 | one rewritten node per top-level node |
| TemplatifyProperties.LabelInjective | src/doc81/service/templatify.py:106 | two labels `"T n"` are equal only for the same type and the same number |
| TemplatifyProperties.TokenTextInjective | src/doc81/service/templatify.py:102-111 | within one style, equal token texts mean the same type and number, so no two emitted tokens can be confused |
| TemplatifyProperties.WholesaleTokenNames | src/doc81/service/templatify.py:79-86 | `block_code`, `image`, `link`, `table` and `block_quote` become `Code`, `Image`, `Link`, `Table` and `Block_quote` |
| TemplatifyProperties.RewriteCounts | src/doc81/service/templatify.py:56-93 | rewriting a node raises each type's counter by exactly the number of tokens of that type the input calls for, as an independent count over the tree |
| TemplatifyProperties.RewriteAllCounts | src/doc81/service/templatify.py:63 | the same exact count for a sequence of children |
| TemplatifyProperties.TemplatifyCounts | src/doc81/service/templatify.py:46-52 | counters start empty on each call, so the last number of each type is the number of its tokens in the document, counted independently over the input tree |
| TemplatifyNumbering.TokenNumber | src/doc81/service/templatify.py:102-111 | a number read back from a text makes exactly that text as a token of the type |
| TemplatifyNumbering.TokenNumberOfText | src/doc81/service/templatify.py:102-111 | every token text reads back as the number it was made with |
| TemplatifyNumbering.TokenNodeNumber | src/doc81/service/templatify.py:102-118 | a token node reads back as its own type and number, and as no other type's token |
| TemplatifyNumbering.RewriteNumbers | src/doc81/service/templatify.py:56-93 | the type-t numbers in a rewritten node, in pre-order, are exactly the numbers the rewrite issued, one each: the run from the counter on entry (exclusive) to the counter on exit (inclusive) |
| TemplatifyNumbering.RewriteAllNumbers | src/doc81/service/templatify.py:63 | the same for a sequence of children, whose runs join end to start |
| TemplatifyNumbering.ListNumbers | src/doc81/service/templatify.py:73-78 | the `Item` numbers in a rewritten list are the run of the `Item` counter, one per item in order; kept non-item children add none |
| TemplatifyNumbering.TemplatifyNumbering | src/doc81/service/templatify.py:46-52 | in the document, the numbers of each token type read in pre-order are exactly 1, 2, ..., N with N the count of that type: none skipped, none repeated, none out of order, provided the input holds no token-shaped `block_text` of its own |
| TemplatifyNumbering.TemplatifyNumberingPlain | src/doc81/service/templatify.py:46-52 | the same for any input with no `block_text` node |
| TemplatifyProperties.RewriteAllAppend | src/doc81/service/templatify.py:52 | rewriting a concatenation is rewriting the first part and then the second from the counters the first left: numbering follows document order |
| TemplatifyProperties.ListItemsNumbered | src/doc81/service/templatify.py:73-78 | the i-th child of a list, when it is an item, becomes `Item k` with k one past the entry counter plus the items before it |
| TemplatifyProperties.RewriteAllPositions | src/doc81/service/templatify.py:56-93 | position by position, a child becomes `None` exactly when it was a pruned heading, and otherwise keeps its type or becomes a token; a kept child other than a blank line changes only its children, keeping their number |
| TemplatifyProperties.RewriteTemplated | src/doc81/service/templatify.py:56-93 | the rewritten tree keeps no code, image, link, table or quote; no all-text paragraph; no item inside a list; and in outline mode no heading deeper than 3 |
| TemplatifyProperties.RewriteAllTemplated | src/doc81/service/templatify.py:63 | the same holds for every rewritten child |
| TemplatifyProperties.TemplatifyTemplated | src/doc81/service/templatify.py:46-52 | the same holds for the whole document |
| TemplatifyExamples.ParagraphBecomesToken | tests/test_markdown_templatify.py:20-32 | `# Title` is kept and the plain paragraph becomes `[Paragraph 1]` |
| TemplatifyExamples.ListItemsBecomeTokens | tests/test_markdown_templatify.py:38-48 | two bullets become `[Item 1]` and `[Item 2]` |
| TemplatifyExamples.CodeBlockBecomesFencedToken | tests/test_markdown_templatify.py:54-67 | a fenced `tsx` block becomes the fenced `[Code 1]` |
| TemplatifyExamples.ImageInsideParagraph | tests/test_markdown_templatify.py:73-76 | a paragraph holding an image is kept and the image becomes `[Image 1]` |
| TemplatifyExamples.CurlyStyleToken | tests/test_markdown_templatify.py:82-94 | the curly style turns the paragraph under `## Sub-heading` into `{{Paragraph 1}}` |
| TemplatifyExamples.CodeIgnoresCurlyStyle | src/doc81/service/templatify.py:102-104 | a code block under the curly style is still the fenced bracket token |
| TemplatifyExamples.OutlinePrunesDeepHeadings | src/doc81/service/templatify.py:60-62 | outline mode prunes a level-4 heading and keeps a level-3 one |
| TemplatifyExamples.CountersArePerType | src/doc81/service/templatify.py:96-101 | paragraph, image, paragraph numbers as Paragraph 1, Image 1, Paragraph 2 |
| PyString.Decimal | src/doc81/service/templatify.py:106 | `str(n)` is a non-empty string of digits with no leading zero |
| PyString.DecimalRoundTrip | src/doc81/service/templatify.py:106 | reading the numeral back gives n |
| PyString.DecimalInjective | src/doc81/service/templatify.py:106 | different numbers have different numerals |
| PyString.Capitalize | src/doc81/service/templatify.py:86 | the length is kept; the result equals the input up to case; the first character is not lower case and the rest are not upper case |
| TemplateKeys.Lists | web/src/hooks/use-templates.ts:14 | `lists()` is `all` followed by `"list"` |
| TemplateKeys.List | web/src/hooks/use-templates.ts:15 | `list(f)` is `lists()` followed by the filters object |
| TemplateKeys.Details | web/src/hooks/use-templates.ts:16 | `details()` is `all` followed by `"detail"` |
| TemplateKeys.Detail | web/src/hooks/use-templates.ts:17 | `detail(id)` is `details()` followed by the id |
| TemplateKeys.EveryKeyExtendsAll | web/src/hooks/use-templates.ts:12-18 | `all` is `["templates"]` and a prefix of every key the factory builds |
| TemplateKeys.ListKeysExtendLists | web/src/hooks/use-templates.ts:14-15 | `lists()` is a strict prefix of every filtered list key, and list keys are equal exactly when their filters are |
| TemplateKeys.DetailInjective | web/src/hooks/use-templates.ts:17 | two detail keys are equal exactly when their ids are |
| TemplateKeys.ListsAndDetailsDiverge | web/src/hooks/use-templates.ts:12-18 | list-family and detail-family keys share `all` and differ at the next part, so neither is a prefix of the other |
| TemplateKeys.UseTemplates | web/src/hooks/use-templates.ts:21-26 | the list query is keyed by `lists()` and always enabled |
| TemplateKeys.UseTemplate | web/src/hooks/use-templates.ts:29-35 | the detail query is keyed by `detail(id)` and enabled exactly for a non-empty id |
| TemplateKeys.DetailQueriesSeparate | web/src/hooks/use-templates.ts:21-35 | two detail queries share a key exactly for the same id, and never share one with the list query |
| TemplateCarousel.MouseEnter | web/src/components/template-carousel.tsx:53-56 | entering a card marks it hovered and pauses autoplay |
| TemplateCarousel.MouseLeave | web/src/components/template-carousel.tsx:58-61 | leaving clears the hovered card and resumes autoplay |
| TemplateCarousel.ApplyHover | web/src/components/template-carousel.tsx:52-61 | after either handler the entered card is the hovered one, or none is after a leave, and autoplay is on exactly when no card is hovered |
| TemplateCarousel.ApplyHoverConsistent | web/src/components/template-carousel.tsx:52-61 | after either handler, autoplay is on exactly when no card is hovered |
| TemplateCarousel.HoverInvariant | web/src/components/template-carousel.tsx:32-61 | from the initial state, every sequence of enters and leaves keeps autoplay on exactly when no card is hovered |
| TemplateCarousel.LeaveRestoresInitial | web/src/components/template-carousel.tsx:58-61 | leaving returns to the initial state, whatever was hovered |
| TemplateCarousel.IsHovered | web/src/components/template-carousel.tsx:80 | a card counts as hovered only when its id is the one stored, so no other id is hovered then, and autoplay is paused in a consistent state |
| TemplateCarousel.HoveredCardUnique | web/src/components/template-carousel.tsx:80 | in a consistent state at most one card is hovered, and then autoplay is paused |
| TemplateCarousel.WantsTimer | web/src/components/template-carousel.tsx:37 | the effect returns early without an interval when the API is missing or autoplay is off, and starts one otherwise |
| TemplateCarousel.RerunEffect | web/src/components/template-carousel.tsx:36-44 | re-running the effect leaves an interval exactly when the API exists and autoplay is on |
| TemplateCarousel.Step | web/src/components/template-carousel.tsx:36-44 | an unmounted carousel ignores every event; only unmount unmounts; a hover event sets the hover state by its handler and leaves the API flag alone; an API event sets the API flag and leaves the hover state alone; unmount leaves no armed interval |
| TemplateCarousel.StepKeepsTimerInvariant | web/src/components/template-carousel.tsx:36-44 | each hover, arrival or loss of the API, or unmount keeps exactly the last run's interval alive while mounted, and none after unmount |
| TemplateCarousel.RunKeepsTimerInvariant | web/src/components/template-carousel.tsx:36-44 | the same bookkeeping holds over any event sequence |
| TemplateCarousel.AtMostOneTimer | web/src/components/template-carousel.tsx:36-44 | from mount, at most one interval is ever live; one is live exactly when mounted with the API present and autoplay on; none survives unmount |
| TemplateCarousel.MaxLength | web/src/components/template-carousel.tsx:47 | the preview limit is 300 code units exactly for a hovered card and 100 otherwise |
| TemplateCarousel.TruncateContent | web/src/components/template-carousel.tsx:46-50 | on the content's UTF-16 code units: content up to the limit (300 hovered, 100 otherwise) is unchanged; longer content is its first `maxLength` code units followed by the three units of `...` |
| TemplateCarousel.TruncateBounds | web/src/components/template-carousel.tsx:46-50 | a preview is at most the limit plus 3 long, and what it shows is a prefix of the content |
| TemplateCarousel.TruncateIdempotent | web/src/components/template-carousel.tsx:46-50 | truncating a preview again changes nothing |
| TemplateCarousel.EllipsisUnits | web/src/components/template-carousel.tsx:49 | `"..."` is three code units |
| TemplateCarousel.TruncateCountsCodeUnits | web/src/components/template-carousel.tsx:46-50 | `a` and 60 emoji are 121 units, so the unhovered preview is cut to 100 units plus `...`, and its last kept unit is a lone high surrogate |
| TemplateCarousel.LogoKey | web/src/components/template-carousel.tsx:111 | the lookup key never has an upper-case letter |
| TemplateCarousel.LogoFor | web/src/components/template-carousel.tsx:14-21 | a tag has a logo exactly when its key is one of the six companies, and the logo is that company's |
| TemplateCarousel.Avatars | web/src/components/template-carousel.tsx:110-117 | with the corrected lookup (see Findings), every avatar shown comes from a tag and shows that tag's logo; order and multiplicity are fixed by AvatarsAppend and AvatarsOfTag |
| TemplateCarousel.AvatarsComplete | web/src/components/template-carousel.tsx:110-117 | every tag with a logo gets its avatar |
| TemplateCarousel.AvatarsAppend | web/src/components/template-carousel.tsx:110-117 | `tags.map` renders tag by tag: the avatars of two tag lists in a row are the first list's followed by the second's |
| TemplateCarousel.AvatarsOfTag | web/src/components/template-carousel.tsx:110-117 | one tag renders exactly one avatar with its logo when it has one and nothing otherwise; with AvatarsAppend this fixes the order and number of avatars |
| TemplateCarousel.CompanyTagKey | web/src/components/template-carousel.tsx:111 | the key of a `company:`-prefixed tag is the lower-cased rest |
| TemplateCarousel.LogoForCompanyMeta | web/src/components/template-carousel.tsx:14-21 | `company:meta` shows the Meta logo |
| TemplateCarousel.LogoForUpperCaseName | web/src/components/template-carousel.tsx:111 | `company:NVIDIA` shows the NVIDIA logo, since case is ignored |
| TemplateCarousel.LogoForBareName | web/src/components/template-carousel.tsx:111 | a bare `Google` tag shows the Google logo, since the prefix is optional |
| TemplateCarousel.NoLogoForOtherCompany | web/src/components/template-carousel.tsx:14-21 | a company outside the six shows no logo |
| TemplateCarousel.PropertyAsWritten | web/src/components/template-carousel.tsx:111 | indexing the object literal finds an own entry, an inherited `Object.prototype` member, or nothing |
| TemplateCarousel.ConstructorTagShowsAvatar | web/src/components/template-carousel.tsx:111-113 | the guard as written renders an avatar for `company:constructor`, which has no logo |
| TemplateCarousel.ReachableInheritedMembers | web/src/components/template-carousel.tsx:111 | after lower-casing, only `constructor` and `__proto__` can hit an inherited member |
| TemplateCarousel.AsWrittenAgreesElsewhere | web/src/components/template-carousel.tsx:111 | apart from those two keys, the guard as written and the own-entry lookup agree |
| JsString.Utf16RoundTrip | web/src/components/template-carousel.tsx:48-49 | a string's UTF-16 code units decode back to the string |
| JsString.Length | web/src/components/template-carousel.tsx:48 | `length` is the number of UTF-16 code units: one per character of the Basic Multilingual Plane, two for any other |
| JsString.Substring | web/src/components/template-carousel.tsx:49 | `substring` on code units is never longer than the string, and for in-range indices gives the slice between them in either order |
| JsString.IndexOf | web/src/components/template-carousel.tsx:111 | the position of the first occurrence of the pattern, or none when there is none |
| JsString.ReplaceFirst | web/src/components/template-carousel.tsx:111 | only the first occurrence is replaced, and a string without one comes back unchanged |
| JsString.ToLowerCase | web/src/components/template-carousel.tsx:111 | lower-casing keeps the length, maps each character to its lower-case form (ASCII letters down, everything else unchanged) and leaves no upper-case letter |
| JsString.ReplaceLeadingPattern | web/src/components/template-carousel.tsx:111 | removing a leading pattern leaves the rest |
| JsString.EndsWithIffConcat | web/src/app/page.tsx:18 | `endsWith(x)` holds exactly when the name is some string followed by x |
| JsString.Trim | web/src/app/page.tsx:52 | `trim` yields the slice between the leading and trailing white space, whose ends are not white space |
| JsString.TrimEmptyIffAllWhiteSpace | web/src/app/page.tsx:52 | `trim` is empty exactly when every character is white space |
| JsString.Split | web/src/components/markdown-canvas.tsx:168 | `split` gives one more part than separators, and no part contains the separator |
| JsString.JoinSplit | web/src/components/markdown-canvas.tsx:168 | joining the parts back with the separator gives the original |
| MarkdownCanvas.Mount | web/src/components/markdown-canvas.tsx:21-22 | the buffer starts as the initial content, not generating |
| MarkdownCanvas.ContentChange | web/src/components/markdown-canvas.tsx:29-32 | the buffer becomes s, and the identical s goes to the parent |
| MarkdownCanvas.SyncInitial | web/src/components/markdown-canvas.tsx:25-27 | a new initial content overwrites the buffer |
| MarkdownCanvas.EnhanceStart | web/src/components/markdown-canvas.tsx:34-39 | the flag goes up and the current buffer is sent as `raw_markdown` |
| MarkdownCanvas.EnhanceSettle | web/src/components/markdown-canvas.tsx:37-46 | on success the result becomes the buffer, goes to the parent, and the flag drops; on rejection nothing changes and nothing is forwarded |
| MarkdownCanvas.CharCount | web/src/components/markdown-canvas.tsx:168 | the character count is the buffer's number of UTF-16 code units: its number of characters when all lie in the Basic Multilingual Plane, at most twice that otherwise |
| MarkdownCanvas.LineCount | web/src/components/markdown-canvas.tsx:168 | the line count is the number of newlines in the buffer plus one |
| MarkdownCanvas.EmojiCountsTwice | web/src/components/markdown-canvas.tsx:168 | a single emoji counts as 2 characters |
| MarkdownCanvas.LineCountIsNewlinesPlusOne | web/src/components/markdown-canvas.tsx:168 | the line count is the number of newlines plus one, so at least one, and the lines rejoin to the buffer |
| MarkdownCanvas.EmptyBufferHasOneLine | web/src/components/markdown-canvas.tsx:168 | an empty buffer shows 0 characters and 1 line |
| MarkdownCanvas.SessionStep | web/src/components/markdown-canvas.tsx:101-104 | a click on the enabled button sends the buffer and raises the flag; a click on the disabled one does nothing |
| MarkdownCanvas.SessionStepSingleFlight | web/src/components/markdown-canvas.tsx:34-50 | a request is outstanding only while the flag is up, so a second click cannot start another |
| MarkdownCanvas.RejectionSticks | web/src/components/markdown-canvas.tsx:34-46 | a rejected request leaves the flag up with nothing outstanding, and the buffer unchanged |
| MarkdownCanvas.StuckStaysStuck | web/src/components/markdown-canvas.tsx:101-104 | once stuck, every canvas event keeps the button disabled |
| LandingPage.FileUpload | web/src/app/page.tsx:17-26 | an accepted file's text becomes the content; any other file changes nothing |
| LandingPage.MarkdownExtensionRefused | web/src/app/page.tsx:18 | a `.markdown` file, which the picker offers, is refused unless its type is `text/markdown` |
| LandingPage.MdExtensionAccepted | web/src/app/page.tsx:18 | a `.md` file is taken whatever its type |
| LandingPage.FileInputChange | web/src/app/page.tsx:57-62 | the first chosen file is uploaded; choosing none changes nothing |
| LandingPage.DragOver | web/src/app/page.tsx:28-31 | drag-over sets the highlight and nothing else |
| LandingPage.DragLeave | web/src/app/page.tsx:33-36 | drag-leave clears the highlight and nothing else |
| LandingPage.Drop | web/src/app/page.tsx:38-49 | a drop clears the highlight and uploads only the first file; an empty drop changes only the highlight |
| LandingPage.DropIgnoresLaterFiles | web/src/app/page.tsx:43-46 | two drops with the same first file have the same effect, whatever files follow it |
| LandingPage.Submit | web/src/app/page.tsx:51-55 | submit keeps the content and the drag flag, and afterwards the canvas is open exactly when it was open or some character is not white space |
| LandingPage.SubmitGate | web/src/app/page.tsx:51-55 | submit opens the canvas exactly when some character is not white space, and otherwise changes nothing; the button is disabled in exactly the other case |
| LandingPage.CloseCanvas | web/src/app/page.tsx:248 | closing hides the canvas and keeps the content |
| LandingPage.Handle | web/src/app/page.tsx:246-251 | the close click hides the canvas and leaves the canvas state alone |
| LandingPage.Step | web/src/components/markdown-canvas.tsx:25-27 | after each event and re-render the page is the handler's; when the page content changed, the canvas's `[initialContent]` effect has copied it into the buffer; the request and the flag are the handler's |
| LandingPage.StepInSync | web/src/app/page.tsx:246-251 | each event keeps the canvas buffer equal to the page's content and at most one request outstanding |
| LandingPage.AlwaysInSync | web/src/app/page.tsx:246-251 | the same holds over any event sequence |
| LandingPage.StartInSync | web/src/app/page.tsx:13-15 | on first render the canvas buffer holds the page's empty content and no request is outstanding |
| LandingPage.InSyncFromStart | web/src/app/page.tsx:246-251 | from first render, over any event sequence, the canvas buffer equals the page's content and a request is outstanding only while the button is disabled |
| LandingPage.CanvasEditFlowsBack | web/src/app/page.tsx:250 | an edit in the open canvas lands in both the buffer and the page's content |
| LandingPage.ClosedCanvasTakesNoInput | web/src/components/markdown-canvas.tsx:75 | a closed canvas takes no edits or clicks |
| LandingPage.RejectionDisablesForever | web/src/components/markdown-canvas.tsx:34-50 | after a rejection, the enhance button stays disabled through every later event, including closing and reopening the canvas |

## Left out

- Markdown parsing and rendering (mistune) are left out. The model starts from the AST and ends at the rewritten tree. How the renderer prints a pruned `None` is the renderer's business.
- Nodes carry only their type, heading level, raw text and children. Other attributes pass through the rewrite untouched and are not modelled. A missing `children` key is modelled as an empty sequence.
- The input tree may not hold `None` (`Pruned`) nodes. Python would fail on `None["type"]` for them, and mistune never produces them.
- Frontmatter validation by pydantic (`TemplatifyFrontmatter`) is left out. It raises or passes and does not affect the rewrite.
- react-query caching, fetching, retries and the mutation lifecycle are library behaviour and are left out. Where the canvas awaits `useGenerateTemplate`, the mutation's outcome is an input to the model.
- The template detail page (`web/src/app/templates/[path]/page.tsx`) is not modelled: its `{{name}}` extractor (a regular expression, then `trim` and deduplication by object key) and its generate call, which does catch a rejection, are outside the modelled files.
- Query filter values are `unknown` in the source and are modelled as strings.
- The HTTP service wrappers, the REST routes, and the filesystem and configuration code are not part of this model.
- Embla scrolling, `scrollNext` and interval timing are left out. The model tracks which intervals exist, not when they fire.
- Clipboard, download, toasts and console logging are browser side effects and are left out.
- The FileReader read is asynchronous. The model applies the read text at once, so a second file chosen before the first read ends is not modelled.
- Every state a card shows is derived from the hover state. The loading and empty-list branches of the carousel only choose what to render.
- JsString.ToLowerCase: lower-cases ASCII letters only, because full Unicode case mapping is not modelled. The six logo keys and the `company:` prefix are ASCII.
- A JavaScript string holding a lone surrogate has no Dafny `string` counterpart, since a Dafny `char` is a Unicode scalar value. Tags, file text and the canvas buffer are modelled as well-formed text; only `TruncateContent`'s result, which can end in a lone surrogate, is kept as code units.
- JsString.IndexOf, JsString.ReplaceFirst, JsString.Split and JsString.EndsWithIffConcat: compare characters, not code units. Their patterns (`company:`, `\n`, `.md`, `.markdown`) are ASCII, and on well-formed text an ASCII match falls at the same place either way.
- PyString.Capitalize: case-maps ASCII only, for the same reason. The two names it is applied to, `table` and `block_quote`, are ASCII.

## Findings

| source | as written | input that shows it | evidently intended | confidence | as-written member | corrected member |
|---|---|---|---|---|---|---|
| web/src/components/template-carousel.tsx:111-113 | `COMPANY_LOGOS[key]` on a plain object literal also finds members inherited from `Object.prototype` | the tag `company:constructor`: its key `constructor` finds the `Object` function, so the guard renders an avatar whose image source is that function | show an avatar only for the six own keys | medium, not executed | TemplateCarousel.ConstructorTagShowsAvatar | TemplateCarousel.Avatars |

=== FILE: ascii.dfy ===
/** Character classes and case mapping on the ASCII range. Both Python's `str.capitalize` and
    JavaScript's `toLowerCase` are modelled through these; outside ASCII they leave characters
    as they are. */
module Ascii {

  predicate IsDigit(c: char) {
    '0' <= c <= '9'
  }

  predicate IsUpper(c: char) {
    'A' <= c <= 'Z'
  }

  predicate IsLower(c: char) {
    'a' <= c <= 'z'
  }

  function LowerChar(c: char): (r: char)
    ensures !IsUpper(r)
    ensures IsUpper(c) ==> IsLower(r) && r as int == c as int + 32
    ensures !IsUpper(c) ==> r == c
  {
    if IsUpper(c) then (c as int + 32) as char else c
  }

  function UpperChar(c: char): (r: char)
    ensures !IsLower(r)
    ensures IsLower(c) ==> IsUpper(r) && r as int + 32 == c as int
    ensures !IsLower(c) ==> r == c
  {
    if IsLower(c) then (c as int - 32) as char else c
  }

  /** Lower-cases every character of `s`. */
  function Lower(s: string): (r: string)
    ensures |r| == |s|
    ensures forall i :: 0 <= i < |s| ==> r[i] == LowerChar(s[i])
  {
    seq(|s|, i requires 0 <= i < |s| => LowerChar(s[i]))
  }

  /** Text without upper-case letters is its own lower-case form. */
  lemma LowerWithoutUpper(s: string)
    requires forall i :: 0 <= i < |s| ==> !IsUpper(s[i])
    ensures Lower(s) == s
  {
  }
}

=== FILE: jsstring.dfy ===
/** The JavaScript `String` methods the web client relies on. A Dafny `char` is a Unicode
    scalar value, while a JavaScript string is a sequence of UTF-16 code units: `Utf16` gives
    the units JavaScript sees, and `length` and `substring` are modelled on them. The other
    methods here look only for ASCII or BMP characters, and on well-formed text they answer
    the same whether code points or code units are compared. */
module JsString {
  import opened Wrappers
  import Ascii

  // ---------------------------------------------------------------------------
  // UTF-16: length, substring
  // ---------------------------------------------------------------------------

  type CodeUnit = x: int | 0 <= x < 0x1_0000

  /** A character that fits in one code unit (the Basic Multilingual Plane). */
  predicate IsBmp(c: char) {
    c as int < 0x1_0000
  }

  predicate IsHighSurrogate(u: CodeUnit) {
    0xD800 <= u < 0xDC00
  }

  predicate IsLowSurrogate(u: CodeUnit) {
    0xDC00 <= u < 0xE000
  }

  /** The code units of one character: itself, or a high and a low surrogate. */
  function Utf16Char(c: char): (u: seq<CodeUnit>)
    ensures IsBmp(c) ==> u == [c as int]
    ensures !IsBmp(c) ==> |u| == 2 && IsHighSurrogate(u[0]) && IsLowSurrogate(u[1])
  {
    var v := c as int;
    if v < 0x1_0000 then [v]
    else
      var w := v - 0x1_0000;
      [0xD800 + w / 0x400, 0xDC00 + w % 0x400]
  }

  /** The UTF-16 encoding of a string, as JavaScript holds it. */
  function Utf16(s: string): seq<CodeUnit> {
    if |s| == 0 then [] else Utf16Char(s[0]) + Utf16(s[1..])
  }

  /** Reading UTF-16 back: a surrogate pair makes one character; a lone surrogate makes the
      sequence ill-formed. */
  function FromUtf16(u: seq<CodeUnit>): Option<string>
    decreases |u|
  {
    if |u| == 0 then Some("")
    else if IsHighSurrogate(u[0]) then
      if |u| >= 2 && IsLowSurrogate(u[1]) then
        var v: int := 0x1_0000 + (u[0] as int - 0xD800) * 0x400 + (u[1] as int - 0xDC00);
        match FromUtf16(u[2..])
        case Some(rest) => Some([v as char] + rest)
        case None => None
      else None
    else if IsLowSurrogate(u[0]) then None
    else
      match FromUtf16(u[1..])
      case Some(rest) => Some([u[0] as char] + rest)
      case None => None
  }

  lemma Utf16CharRoundTrip(c: char, rest: seq<CodeUnit>)
    ensures FromUtf16(Utf16Char(c) + rest) ==
              match FromUtf16(rest) case Some(r) => Some([c] + r) case None => None
  {
    var u := Utf16Char(c) + rest;
    if IsBmp(c) {
      assert u[1..] == rest;
    } else {
      assert u[2..] == rest;
    }
  }

  /** Decoding the encoding of a string gives the string back. */
  lemma {:induction false} Utf16RoundTrip(s: string)
    ensures FromUtf16(Utf16(s)) == Some(s)
    decreases |s|
  {
    if |s| > 0 {
      Utf16RoundTrip(s[1..]);
      Utf16CharRoundTrip(s[0], Utf16(s[1..]));
      assert [s[0]] + s[1..] == s;
    }
  }

  /** `s.length`: one unit per character of the Basic Multilingual Plane, two for any other. */
  function Length(s: string): (n: nat)
    ensures n == |Utf16(s)|
    ensures |s| <= n <= 2 * |s|
    ensures (forall i :: 0 <= i < |s| ==> IsBmp(s[i])) ==> n == |s|
  {
    if |s| == 0 then 0
    else
      assert forall i :: 1 <= i < |s| ==> s[1..][i - 1] == s[i];
      (if IsBmp(s[0]) then 1 else 2) + Length(s[1..])
  }

  function Clamp(i: int, len: nat): (r: nat)
    ensures r <= len
  {
    if i < 0 then 0 else if i > len then len else i
  }

  /** `s.substring(start, end)` on the code units `s`: both indices clamped to
      `[0, length]` and swapped when the first exceeds the second. */
  function Substring<T>(s: seq<T>, start: int, end: int): (r: seq<T>)
    ensures |r| <= |s|
    ensures 0 <= start <= end <= |s| ==> r == s[start..end]
    ensures 0 <= end <= start <= |s| ==> r == s[end..start]
  {
    var a := Clamp(start, |s|);
    var b := Clamp(end, |s|);
    if a <= b then s[a..b] else s[b..a]
  }

  /** `s.endsWith(suffix)`. */
  predicate EndsWith(s: string, suffix: string) {
    |suffix| <= |s| && s[|s| - |suffix|..] == suffix
  }

  /** `endsWith` holds exactly when `s` is some string followed by the suffix. */
  lemma EndsWithIffConcat(s: string, suffix: string)
    ensures EndsWith(s, suffix) <==> exists x: string :: s == x + suffix
  {
    if EndsWith(s, suffix) {
      assert s == s[..|s| - |suffix|] + suffix;
    }
    if exists x: string :: s == x + suffix {
      var x: string :| s == x + suffix;
      assert s[|s| - |suffix|..] == suffix;
    }
  }

  // ---------------------------------------------------------------------------
  // indexOf, replace (string pattern: first occurrence only)
  // ---------------------------------------------------------------------------

  predicate OccursAt(s: string, pat: string, k: nat) {
    k + |pat| <= |s| && s[k..k + |pat|] == pat
  }

  /** The first position at or after `from` where `pat` occurs in `s`. */
  function IndexOfFrom(s: string, pat: string, from: nat): (r: Option<nat>)
    requires from <= |s|
    ensures r.Some? ==> from <= r.value && OccursAt(s, pat, r.value)
    ensures r.Some? ==> forall k: nat :: from <= k < r.value ==> !OccursAt(s, pat, k)
    ensures r.None? ==> forall k: nat :: from <= k <= |s| ==> !OccursAt(s, pat, k)
    decreases |s| - from
  {
    if OccursAt(s, pat, from) then Some(from)
    else if from == |s| then None
    else IndexOfFrom(s, pat, from + 1)
  }

  /** `s.indexOf(pat)`, with `None` for JavaScript's `-1`. */
  function IndexOf(s: string, pat: string): (r: Option<nat>)
    ensures r.Some? ==> OccursAt(s, pat, r.value)
    ensures r.Some? ==> forall k: nat :: k < r.value ==> !OccursAt(s, pat, k)
    ensures r.None? ==> forall k: nat :: k <= |s| ==> !OccursAt(s, pat, k)
  {
    IndexOfFrom(s, pat, 0)
  }

  /** `s.replace(pat, rep)` with a string pattern: only the first occurrence is replaced;
      without an occurrence the string comes back unchanged. */
  function ReplaceFirst(s: string, pat: string, rep: string): (r: string)
    ensures IndexOf(s, pat).None? ==> r == s
    ensures IndexOf(s, pat).Some? ==>
              var i := IndexOf(s, pat).value;
              r == s[..i] + rep + s[i + |pat|..]
  {
    match IndexOf(s, pat)
    case None => s
    case Some(i) => s[..i] + rep + s[i + |pat|..]
  }

  /** A prefix match is the first occurrence, so `replace` then strips exactly that prefix. */
  lemma ReplaceLeadingPattern(pat: string, rest: string)
    ensures ReplaceFirst(pat + rest, pat, "") == rest
  {
    var s := pat + rest;
    assert OccursAt(s, pat, 0);
    assert IndexOf(s, pat) == Some(0);
  }

  /** `s.toLowerCase()`, on the ASCII range. */
  function ToLowerCase(s: string): (r: string)
    ensures |r| == |s|
    ensures forall i :: 0 <= i < |s| ==> r[i] == Ascii.LowerChar(s[i])
    ensures forall i :: 0 <= i < |r| ==> !Ascii.IsUpper(r[i])
  {
    Ascii.Lower(s)
  }

  // ---------------------------------------------------------------------------
  // trim
  // ---------------------------------------------------------------------------

  /** ECMAScript WhiteSpace and LineTerminator code points: what `trim` removes. */
  predicate IsWhiteSpace(c: char) {
    || c == '\t' || c == '\n' || c == '\U{B}' || c == '\U{C}' || c == '\r' || c == ' '
    || c == '\U{A0}' || c == '\U{1680}' || ('\U{2000}' <= c <= '\U{200A}')
    || c == '\U{2028}' || c == '\U{2029}' || c == '\U{202F}' || c == '\U{205F}'
    || c == '\U{3000}' || c == '\U{FEFF}'
  }

  predicate AllWhiteSpace(s: string) {
    forall i :: 0 <= i < |s| ==> IsWhiteSpace(s[i])
  }

  /** The number of leading white-space characters. */
  function LeadingSpace(s: string): (n: nat)
    ensures n <= |s|
    ensures AllWhiteSpace(s[..n])
    ensures n < |s| ==> !IsWhiteSpace(s[n])
  {
    if |s| > 0 && IsWhiteSpace(s[0]) then
      var n := 1 + LeadingSpace(s[1..]);
      assert forall i :: 1 <= i < n ==> s[..n][i] == s[1..][..n - 1][i - 1];
      n
    else 0
  }

  /** The number of trailing white-space characters. */
  function TrailingSpace(s: string): (n: nat)
    ensures n <= |s|
    ensures AllWhiteSpace(s[|s| - n..])
    ensures n < |s| ==> !IsWhiteSpace(s[|s| - n - 1])
  {
    if |s| > 0 && IsWhiteSpace(s[|s| - 1]) then
      var init := s[..|s| - 1];
      var n := 1 + TrailingSpace(init);
      var tail, initTail := s[|s| - n..], init[|init| - (n - 1)..];
      assert forall i :: 0 <= i < |initTail| ==> tail[i] == initTail[i];
      n
    else 0
  }

  /** `s.trim()`: the slice of `s` left after removing leading and trailing white space. */
  function Trim(s: string): (r: string)
    ensures exists i, j :: 0 <= i <= j <= |s| && r == s[i..j] && AllWhiteSpace(s[..i]) && AllWhiteSpace(s[j..])
    ensures |r| > 0 ==> !IsWhiteSpace(r[0]) && !IsWhiteSpace(r[|r| - 1])
  {
    var i := LeadingSpace(s);
    var rest := s[i..];
    var t := TrailingSpace(rest);
    assert s[i..][..|rest| - t] == s[i..i + |rest| - t];
    assert s[i + |rest| - t..] == rest[|rest| - t..];
    rest[..|rest| - t]
  }

  /** `trim()` yields the empty string exactly when every character is white space: this
      is the JavaScript falsiness test `!s.trim()`. */
  lemma TrimEmptyIffAllWhiteSpace(s: string)
    ensures Trim(s) == "" <==> AllWhiteSpace(s)
  {
    var i := LeadingSpace(s);
    if AllWhiteSpace(s) {
      assert i == |s|;
    }
    if Trim(s) == "" {
      var rest := s[i..];
      var t := TrailingSpace(rest);
      assert t == |rest|;
      assert i == |s|;
      assert s[..i] == s;
    }
  }

  // ---------------------------------------------------------------------------
  // split (one-character separator)
  // ---------------------------------------------------------------------------

  /** How many times `c` occurs in `s`. */
  function Occurrences(s: string, c: char): nat {
    if |s| == 0 then 0 else (if s[0] == c then 1 else 0) + Occurrences(s[1..], c)
  }

  /** `s.split(sep)` for a one-character separator: the pieces between separators, including
      the empty pieces before a leading or after a trailing separator. */
  function Split(s: string, sep: char): (parts: seq<string>)
    ensures |parts| == Occurrences(s, sep) + 1
    ensures forall i :: 0 <= i < |parts| ==> sep !in parts[i]
  {
    if |s| == 0 then [""]
    else
      var rest := Split(s[1..], sep);
      if s[0] == sep then [""] + rest
      else [[s[0]] + rest[0]] + rest[1..]
  }

  /** `parts.join(sep)`: the inverse reading of `Split`. */
  function Join(parts: seq<string>, sep: char): string {
    if |parts| == 0 then ""
    else if |parts| == 1 then parts[0]
    else parts[0] + [sep] + Join(parts[1..], sep)
  }

  /** Joining the pieces of a split with the same separator gives back the string. */
  lemma {:induction false} JoinSplit(s: string, sep: char)
    ensures Join(Split(s, sep), sep) == s
    decreases |s|
  {
    if |s| > 0 {
      var rest := Split(s[1..], sep);
      JoinSplit(s[1..], sep);
      if s[0] == sep {
        assert Split(s, sep) == [""] + rest;
        assert ([""] + rest)[1..] == rest;
        assert s == [sep] + s[1..];
      } else {
        var parts := Split(s, sep);
        assert parts == [[s[0]] + rest[0]] + rest[1..];
        if |rest| == 1 {
          assert s == [s[0]] + s[1..];
        } else {
          assert parts[1..] == rest[1..];
          assert Join(rest, sep) == rest[0] + [sep] + Join(rest[1..], sep);
          assert s == [s[0]] + s[1..];
        }
      }
    }
  }
}

=== FILE: landing_page.dfy ===
/** The landing page: the markdown text box, the submit gate, file upload by picker or drop,
    the drag-over highlight, and its wiring to the canvas. Reading a file is asynchronous in
    the browser; the model applies the read text at once. */
module LandingPage {
  import opened Wrappers
  import JsString
  import MarkdownCanvas

  datatype File = File(name: string, mimeType: string, text: string)

  datatype Page = Page(markdown: string, showCanvas: bool, isDragOver: bool)

  /** `useState("")`, `useState(false)`, `useState(false)` */
  const Initial: Page := Page("", false, false)

  /** The test in `handleFileUpload`. */
  predicate Accepts(f: File) {
    f.mimeType == "text/markdown" || JsString.EndsWith(f.name, ".md")
  }

  /** `handleFileUpload(file)`: an accepted file's text becomes the content; any other file
      changes nothing. */
  function FileUpload(p: Page, f: File): (r: Page)
    ensures Accepts(f) ==> r == p.(markdown := f.text)
    ensures !Accepts(f) ==> r == p
  {
    if Accepts(f) then p.(markdown := f.text) else p
  }

  /** A `.markdown` file, which the picker offers (`accept=".md,.markdown"`), is refused unless
      the browser labels it `text/markdown`. */
  lemma MarkdownExtensionRefused(p: Page, stem: string, mimeType: string, text: string)
    requires mimeType != "text/markdown"
    ensures FileUpload(p, File(stem + ".markdown", mimeType, text)) == p
  {
    var name := stem + ".markdown";
    assert name[|name| - 3..] == "own";
  }

  /** Any `.md` file is taken, whatever its type. */
  lemma MdExtensionAccepted(p: Page, stem: string, mimeType: string, text: string)
    ensures FileUpload(p, File(stem + ".md", mimeType, text)) == p.(markdown := text)
  {
    var name := stem + ".md";
    assert name[|name| - 3..] == ".md";
  }

  /** `handleFileInputChange`: the first chosen file, if any. */
  function FileInputChange(p: Page, files: seq<File>): (r: Page)
    ensures |files| == 0 ==> r == p
    ensures |files| > 0 ==> r == FileUpload(p, files[0])
  {
    if |files| > 0 then FileUpload(p, files[0]) else p
  }

  /** `handleDragOver` */
  function DragOver(p: Page): (r: Page)
    ensures r == p.(isDragOver := true)
  {
    p.(isDragOver := true)
  }

  /** `handleDragLeave` */
  function DragLeave(p: Page): (r: Page)
    ensures r == p.(isDragOver := false)
  {
    p.(isDragOver := false)
  }

  /** `handleDrop`: the highlight goes off and only the first dropped file is considered. */
  function Drop(p: Page, files: seq<File>): (r: Page)
    ensures !r.isDragOver && r.showCanvas == p.showCanvas
    ensures |files| == 0 ==> r == p.(isDragOver := false)
    ensures |files| > 0 ==> r == FileUpload(p, files[0]).(isDragOver := false)
  {
    FileInputChange(p.(isDragOver := false), files)
  }

  /** Files after the first never matter to a drop. */
  lemma DropIgnoresLaterFiles(p: Page, f: File, rest1: seq<File>, rest2: seq<File>)
    ensures Drop(p, [f] + rest1) == Drop(p, [f] + rest2)
  {
  }

  /** `disabled={!markdownContent.trim()}` on the submit button. */
  predicate SubmitDisabled(p: Page) {
    JsString.Trim(p.markdown) == ""
  }

  /** `handleSubmit`: the canvas opens only for content that is not all white space. */
  function Submit(p: Page): (r: Page)
    ensures r.markdown == p.markdown && r.isDragOver == p.isDragOver
    ensures r.showCanvas <==> p.showCanvas || !JsString.AllWhiteSpace(p.markdown)
  {
    JsString.TrimEmptyIffAllWhiteSpace(p.markdown);
    if JsString.Trim(p.markdown) != "" then p.(showCanvas := true) else p
  }

  /** Submitting opens the canvas exactly when some character is not white space, and
      otherwise changes nothing; the button is disabled in exactly the other case. */
  lemma SubmitGate(p: Page)
    ensures !JsString.AllWhiteSpace(p.markdown) ==> Submit(p) == p.(showCanvas := true)
    ensures JsString.AllWhiteSpace(p.markdown) ==> Submit(p) == p
    ensures SubmitDisabled(p) <==> JsString.AllWhiteSpace(p.markdown)
  {
    JsString.TrimEmptyIffAllWhiteSpace(p.markdown);
  }

  /** `onClose={() => setShowCanvas(false)}` */
  function CloseCanvas(p: Page): (r: Page)
    ensures !r.showCanvas && r.markdown == p.markdown && r.isDragOver == p.isDragOver
  {
    p.(showCanvas := false)
  }

  // ---------------------------------------------------------------------------
  // The page with its canvas
  // ---------------------------------------------------------------------------

  /** The page and the canvas it renders. The canvas stays mounted while closed (it returns
      `null` after its hooks), so its state survives closing and reopening. */
  datatype App = App(page: Page, session: MarkdownCanvas.Session)

  function Start(): App {
    App(Initial, MarkdownCanvas.Session(MarkdownCanvas.Mount(Initial.markdown), None))
  }

  datatype Event =
    | Type(text: string)
    | ChooseFiles(files: seq<File>)
    | DragOverZone
    | DragLeaveZone
    | DropFiles(files: seq<File>)
    | ClickSubmit
    | CloseCanvasClick
    | OnCanvas(e: MarkdownCanvas.CanvasEvent)

  /** The page's handlers, then the canvas's `onContentChange = setMarkdownContent`. Edits and
      clicks reach the canvas only while it renders; a pending request settles regardless. */
  function Handle(a: App, e: Event): (r: App)
    ensures e.CloseCanvasClick? ==> r.page == CloseCanvas(a.page) && r.session == a.session
  {
    match e
    case Type(text) => a.(page := a.page.(markdown := text))
    case ChooseFiles(files) => a.(page := FileInputChange(a.page, files))
    case DragOverZone => a.(page := DragOver(a.page))
    case DragLeaveZone => a.(page := DragLeave(a.page))
    case DropFiles(files) => a.(page := Drop(a.page, files))
    case ClickSubmit => a.(page := Submit(a.page))
    case CloseCanvasClick => a.(page := CloseCanvas(a.page))
    case OnCanvas(ce) =>
      if !ce.Settle? && !MarkdownCanvas.Renders(a.page.showCanvas) then a
      else
        var (s, forwarded) := MarkdownCanvas.SessionStep(a.session, ce);
        var markdown := forwarded.GetOr(a.page.markdown);
        App(a.page.(markdown := markdown), s)
  }

  /** One event and the re-render after it: when `markdownContent` changed, the canvas's
      `[initialContent]` effect copies it into the buffer. */
  function Step(a: App, e: Event): (r: App)
    ensures r.page == Handle(a, e).page
    ensures r.page.markdown != a.page.markdown ==> r.session.canvas.content == r.page.markdown
    ensures r.session.pending == Handle(a, e).session.pending
    ensures r.session.canvas.isGenerating == Handle(a, e).session.canvas.isGenerating
  {
    var r := Handle(a, e);
    if r.page.markdown != a.page.markdown then
      r.(session := r.session.(canvas := MarkdownCanvas.SyncInitial(r.session.canvas, r.page.markdown)))
    else r
  }

  function Run(a: App, es: seq<Event>): App
    decreases |es|
  {
    if |es| == 0 then a else Run(Step(a, es[0]), es[1..])
  }

  /** The buffer and the page's content agree, and a request is outstanding only while the
      enhance button is disabled. */
  predicate InSync(a: App) {
    && a.session.canvas.content == a.page.markdown
    && MarkdownCanvas.SingleFlight(a.session)
  }

  lemma StepInSync(a: App, e: Event)
    requires InSync(a)
    ensures InSync(Step(a, e))
  {
    if e.OnCanvas? {
      MarkdownCanvas.SessionStepSingleFlight(a.session, e.e);
    }
  }

  /** From the first render, every sequence of events keeps the canvas buffer equal to the
      page's content (edits flow up, new content flows down, with no divergence) and never
      has two generate requests outstanding. */
  lemma {:induction false} AlwaysInSync(a: App, es: seq<Event>)
    requires InSync(a)
    ensures InSync(Run(a, es))
    decreases |es|
  {
    if |es| > 0 {
      StepInSync(a, es[0]);
      AlwaysInSync(Step(a, es[0]), es[1..]);
    }
  }

  /** On first render the canvas buffer is the page's (empty) content and nothing is in flight. */
  lemma StartInSync()
    ensures InSync(Start())
  {
  }

  /** From first render, whatever happens, the canvas buffer equals the page's content and at
      most one generate request is outstanding, and only while the button is disabled. */
  lemma {:induction false} InSyncFromStart(es: seq<Event>)
    ensures Run(Start(), es).session.canvas.content == Run(Start(), es).page.markdown
    ensures MarkdownCanvas.SingleFlight(Run(Start(), es).session)
  {
    StartInSync();
    AlwaysInSync(Start(), es);
  }

  /** An edit in the open canvas lands in both the buffer and the page's content. */
  lemma CanvasEditFlowsBack(a: App, text: string)
    requires a.page.showCanvas
    ensures Step(a, OnCanvas(MarkdownCanvas.Edit(text))).page.markdown == text
    ensures Step(a, OnCanvas(MarkdownCanvas.Edit(text))).session.canvas.content == text
  {
  }

  /** While the canvas is closed, it takes no edits and no clicks. */
  lemma ClosedCanvasTakesNoInput(a: App, ce: MarkdownCanvas.CanvasEvent)
    requires !a.page.showCanvas && !ce.Settle?
    ensures Step(a, OnCanvas(ce)) == a
  {
  }

  /** After a rejected generation, the enhance button stays disabled through every later
      event, closing and reopening the canvas included. */
  lemma {:induction false} RejectionDisablesForever(a: App, es: seq<Event>)
    requires MarkdownCanvas.Stuck(a.session)
    ensures MarkdownCanvas.Stuck(Run(a, es).session)
    decreases |es|
  {
    if |es| > 0 {
      if es[0].OnCanvas? {
        MarkdownCanvas.StuckStaysStuck(a.session, es[0].e);
      }
      RejectionDisablesForever(Step(a, es[0]), es[1..]);
    }
  }
}

=== FILE: markdown_canvas.dfy ===
/** The editing canvas: one local text buffer, mirrored to the parent on every edit, the
    `isGenerating` flag around the generate call, and the footer's character and line
    counts. Clipboard, download and toasts are browser side effects and are not modelled. */
module MarkdownCanvas {
  import opened Wrappers
  import JsString

  datatype Canvas = Canvas(content: string, isGenerating: bool)

  /** `useState(initialContent)` and `useState(false)` */
  function Mount(initialContent: string): (cv: Canvas)
    ensures cv.content == initialContent && !cv.isGenerating
  {
    Canvas(initialContent, false)
  }

  /** A handler's effect: the new canvas, and the text it passed to `onContentChange`, if any. */
  datatype Update = Update(canvas: Canvas, forwarded: Option<string>)

  /** `handleContentChange(s)`: the buffer becomes `s` and the very same `s` goes to the
      parent; the flag is untouched. */
  function ContentChange(cv: Canvas, s: string): (u: Update)
    ensures u.canvas.content == s && u.forwarded == Some(s)
    ensures u.canvas.isGenerating == cv.isGenerating
  {
    Update(cv.(content := s), Some(s))
  }

  /** The `[initialContent]` effect: a new initial content overwrites the buffer. */
  function SyncInitial(cv: Canvas, initialContent: string): (r: Canvas)
    ensures r.content == initialContent && r.isGenerating == cv.isGenerating
  {
    cv.(content := initialContent)
  }

  /** The payload of the generate call. */
  datatype Request = Request(rawMarkdown: string)

  /** `handleAIEnhance` up to its `await`: the flag goes up and the current buffer is sent. */
  function EnhanceStart(cv: Canvas): (r: (Canvas, Request))
    ensures r.0.isGenerating && r.0.content == cv.content
    ensures r.1.rawMarkdown == cv.content
  {
    (cv.(isGenerating := true), Request(cv.content))
  }

  /** `handleAIEnhance` after its `await`. On success the result replaces the buffer, goes to
      the parent, and the flag drops. There is no `catch`: a rejection ends the handler
      before any of that, so buffer and flag stay as they were. */
  function EnhanceSettle(cv: Canvas, outcome: Result<string, string>): (u: Update)
    ensures outcome.Success? ==>
              u.canvas == Canvas(outcome.value, false) && u.forwarded == Some(outcome.value)
    ensures outcome.Failure? ==> u.canvas == cv && u.forwarded.None?
  {
    match outcome
    case Success(text) =>
      var u := ContentChange(cv, text);
      Update(u.canvas.(isGenerating := false), u.forwarded)
    case Failure(_) => Update(cv, None)
  }

  /** `disabled={isGenerating}` on the enhance button. */
  predicate EnhanceDisabled(cv: Canvas) {
    cv.isGenerating
  }

  /** `if (!isOpen) return null`: the canvas shows, and takes input, only while open. */
  predicate Renders(isOpen: bool) {
    isOpen
  }

  /** The footer's `content.length`: the buffer's UTF-16 code units, which is its number of
      characters when all lie in the Basic Multilingual Plane and more otherwise. */
  function CharCount(content: string): (n: nat)
    ensures n == |JsString.Utf16(content)|
    ensures |content| <= n <= 2 * |content|
    ensures (forall i :: 0 <= i < |content| ==> JsString.IsBmp(content[i])) ==> n == |content|
  {
    JsString.Length(content)
  }

  /** One emoji counts as two characters in the footer. */
  lemma EmojiCountsTwice()
    ensures CharCount("\U{1F600}") == 2
  {
  }

  /** The footer's `content.split("\n").length`. */
  function LineCount(content: string): (n: nat)
    ensures n == JsString.Occurrences(content, '\n') + 1
  {
    |JsString.Split(content, '\n')|
  }

  /** The line count is one more than the number of newlines, so an empty buffer shows one
      line; and the lines joined back with newlines are the buffer. */
  lemma LineCountIsNewlinesPlusOne(content: string)
    ensures LineCount(content) == JsString.Occurrences(content, '\n') + 1
    ensures LineCount(content) >= 1
    ensures JsString.Join(JsString.Split(content, '\n'), '\n') == content
  {
    JsString.JoinSplit(content, '\n');
  }

  lemma EmptyBufferHasOneLine()
    ensures CharCount("") == 0 && LineCount("") == 1
  {
  }

  // ---------------------------------------------------------------------------
  // The canvas in use: its events, with the generate call outstanding or not
  // ---------------------------------------------------------------------------

  /** The canvas with the generate request it is waiting on, if any. The pending request is
      the outside world's (an unsettled promise), not component state. */
  datatype Session = Session(canvas: Canvas, pending: Option<Request>)

  datatype CanvasEvent = Edit(text: string) | ClickEnhance | Settle(outcome: Result<string, string>)

  /** One canvas event. A click on the disabled button does nothing; a settlement only
      happens to a request that is pending. */
  function SessionStep(s: Session, e: CanvasEvent): (r: (Session, Option<string>))
    ensures e.ClickEnhance? && !EnhanceDisabled(s.canvas) ==>
              r.0.pending == Some(Request(s.canvas.content)) && r.0.canvas.isGenerating
    ensures e.ClickEnhance? && EnhanceDisabled(s.canvas) ==> r.0 == s && r.1.None?
  {
    match e
    case Edit(text) =>
      var u := ContentChange(s.canvas, text);
      (s.(canvas := u.canvas), u.forwarded)
    case ClickEnhance =>
      if EnhanceDisabled(s.canvas) then (s, None)
      else
        var (cv, req) := EnhanceStart(s.canvas);
        (Session(cv, Some(req)), None)
    case Settle(outcome) =>
      if s.pending.None? then (s, None)
      else
        var u := EnhanceSettle(s.canvas, outcome);
        (Session(u.canvas, None), u.forwarded)
  }

  /** A request is outstanding only while the flag is up, so the disabled button keeps it the
      only one. */
  predicate SingleFlight(s: Session) {
    s.pending.Some? ==> s.canvas.isGenerating
  }

  lemma SessionStepSingleFlight(s: Session, e: CanvasEvent)
    requires SingleFlight(s)
    ensures SingleFlight(SessionStep(s, e).0)
    ensures s.pending.Some? && e.ClickEnhance? ==> SessionStep(s, e).0 == s
  {
  }

  /** The flag up with nothing outstanding: what a rejected generation leaves behind. */
  predicate Stuck(s: Session) {
    s.canvas.isGenerating && s.pending.None?
  }

  /** A rejection of the pending request leaves the canvas stuck. */
  lemma RejectionSticks(s: Session, error: string)
    requires s.pending.Some? && SingleFlight(s)
    ensures Stuck(SessionStep(s, Settle(Failure(error))).0)
    ensures SessionStep(s, Settle(Failure(error))).0.canvas.content == s.canvas.content
  {
  }

  /** Once stuck, every canvas event keeps it stuck: the button stays disabled, so no new
      request can ever clear the flag. */
  lemma StuckStaysStuck(s: Session, e: CanvasEvent)
    requires Stuck(s)
    ensures Stuck(SessionStep(s, e).0)
    ensures EnhanceDisabled(SessionStep(s, e).0.canvas)
  {
  }
}

=== FILE: pystring.dfy ===
/** The two pieces of Python string behaviour the templatifier depends on: `str(n)` of a
    non-negative int (used inside the f-strings that build token text) and `str.capitalize`. */
module PyString {
  import Ascii

  function DigitChar(d: nat): (c: char)
    requires d < 10
    ensures Ascii.IsDigit(c)
  {
    (d + '0' as int) as char
  }

  function DigitValue(c: char): (d: nat)
    requires Ascii.IsDigit(c)
    ensures d < 10
  {
    c as int - '0' as int
  }

  predicate AllDigits(s: string) {
    forall i :: 0 <= i < |s| ==> Ascii.IsDigit(s[i])
  }

  /** `str(n)`: the shortest decimal numeral of `n`, most significant digit first. */
  function Decimal(n: nat): (s: string)
    ensures 1 <= |s|
    ensures AllDigits(s)
    ensures |s| > 1 ==> s[0] != '0'
    decreases n
  {
    if n < 10 then [DigitChar(n)] else Decimal(n / 10) + [DigitChar(n % 10)]
  }

  /** The value of a numeral: the reference reading of what `Decimal` writes. */
  function ValueOf(s: string): nat
    requires AllDigits(s)
  {
    if |s| == 0 then 0 else 10 * ValueOf(s[..|s| - 1]) + DigitValue(s[|s| - 1])
  }

  /** Reading back what `Decimal` writes gives the number written. */
  lemma {:induction false} DecimalRoundTrip(n: nat)
    ensures ValueOf(Decimal(n)) == n
    decreases n
  {
    var s := Decimal(n);
    if n >= 10 {
      DecimalRoundTrip(n / 10);
      assert s[..|s| - 1] == Decimal(n / 10);
    }
  }

  /** Distinct numbers have distinct numerals. */
  lemma DecimalInjective(m: nat, n: nat)
    requires Decimal(m) == Decimal(n)
    ensures m == n
  {
    DecimalRoundTrip(m);
    DecimalRoundTrip(n);
  }

  /** `str.capitalize` on ASCII text: the first character upper-cased, the rest lower-cased. */
  function Capitalize(s: string): (r: string)
    ensures |r| == |s|
    ensures Ascii.Lower(r) == Ascii.Lower(s)
    ensures 0 < |r| ==> !Ascii.IsLower(r[0])
    ensures forall i :: 1 <= i < |r| ==> !Ascii.IsUpper(r[i])
  {
    if |s| == 0 then "" else [Ascii.UpperChar(s[0])] + Ascii.Lower(s[1..])
  }
}

=== FILE: template_carousel.dfy ===
/** The landing-page carousel of templates: the hover state that pauses autoplay, the one
    interval timer the autoplay effect keeps, the card preview truncation and the
    company-logo lookup for tags. Scrolling itself (what `scrollNext` does, and when the
    interval fires) belongs to the carousel library and the browser. */
module TemplateCarousel {
  import opened Wrappers
  import JsString
  import Ascii

  // ---------------------------------------------------------------------------
  // Hover state: `hoveredTemplate` and `autoplayEnabled`
  // ---------------------------------------------------------------------------

  datatype Hover = Hover(hovered: Option<string>, autoplay: bool)

  /** `useState<string | null>(null)` and `useState(true)` */
  const Initial: Hover := Hover(None, true)

  /** `handleMouseEnter(id)` */
  function MouseEnter(h: Hover, id: string): (h': Hover)
    ensures h'.hovered == Some(id) && !h'.autoplay
  {
    Hover(Some(id), false)
  }

  /** `handleMouseLeave()` */
  function MouseLeave(h: Hover): (h': Hover)
    ensures h'.hovered.None? && h'.autoplay
  {
    Hover(None, true)
  }

  datatype HoverEvent = Enter(id: string) | Leave

  /** Either handler: afterwards the entered card is the hovered one, or none is, and autoplay
      is on exactly when no card is hovered. */
  function ApplyHover(h: Hover, e: HoverEvent): (r: Hover)
    ensures e.Enter? ==> r.hovered == Some(e.id)
    ensures e.Leave? ==> r.hovered.None?
    ensures r.autoplay <==> r.hovered.None?
  {
    match e
    case Enter(id) => MouseEnter(h, id)
    case Leave => MouseLeave(h)
  }

  function RunHover(h: Hover, es: seq<HoverEvent>): Hover
    decreases |es|
  {
    if |es| == 0 then h else RunHover(ApplyHover(h, es[0]), es[1..])
  }

  /** Autoplay runs exactly when no card is hovered. */
  predicate Consistent(h: Hover) {
    h.autoplay <==> h.hovered.None?
  }

  /** Every handler keeps the two fields consistent. */
  lemma ApplyHoverConsistent(h: Hover, e: HoverEvent)
    ensures Consistent(ApplyHover(h, e))
  {
  }

  /** From the initial state, every sequence of enters and leaves keeps autoplay on exactly
      while no card is hovered. */
  lemma {:induction false} HoverInvariant(h: Hover, es: seq<HoverEvent>)
    requires Consistent(h)
    ensures Consistent(RunHover(h, es))
    decreases |es|
  {
    if |es| > 0 {
      ApplyHoverConsistent(h, es[0]);
      HoverInvariant(ApplyHover(h, es[0]), es[1..]);
    }
  }

  /** Leaving always returns to the initial state, whatever was hovered before: autoplay
      resumes deterministically. */
  lemma LeaveRestoresInitial(h: Hover)
    ensures MouseLeave(h) == Initial
  {
  }

  /** `hoveredTemplate === template.id` */
  predicate IsHovered(h: Hover, templateId: string): (b: bool)
    ensures b && Consistent(h) ==> !h.autoplay
    ensures b ==> forall other :: other != templateId ==> h.hovered != Some(other)
  {
    h.hovered == Some(templateId)
  }

  /** At most one card is hovered at a time, and a card is hovered only while autoplay is
      paused, in a consistent state. */
  lemma HoveredCardUnique(h: Hover, a: string, b: string)
    requires Consistent(h)
    requires IsHovered(h, a)
    ensures IsHovered(h, b) <==> a == b
    ensures !h.autoplay
  {
  }

  // ---------------------------------------------------------------------------
  // The autoplay effect: at most one interval timer
  // ---------------------------------------------------------------------------

  /** The effect's guard `if (!emblaApi || !autoplayEnabled) return;`, negated. */
  predicate WantsTimer(apiReady: bool, autoplay: bool): (b: bool)
    ensures !apiReady ==> !b
    ensures !autoplay ==> !b
    ensures apiReady && autoplay ==> b
  {
    apiReady && autoplay
  }

  /** The component as React runs it: its hover state, whether the carousel API exists,
      whether the last run of the effect started an interval (so its cleanup clears one),
      how many intervals are started and not yet cleared, and whether it is mounted. */
  datatype Runtime = Runtime(hover: Hover, apiReady: bool, armed: bool, live: nat, mounted: bool)

  /** Re-running the effect: first the previous run's cleanup `clearInterval`, then the body,
      which starts an interval only when the API exists and autoplay is on. */
  function RerunEffect(rt: Runtime): (r: Runtime)
    ensures r.armed == WantsTimer(rt.apiReady, rt.hover.autoplay)
    ensures r.hover == rt.hover && r.apiReady == rt.apiReady && r.mounted == rt.mounted
  {
    var live := if rt.armed && rt.live > 0 then rt.live - 1 else rt.live;
    var start := WantsTimer(rt.apiReady, rt.hover.autoplay);
    rt.(armed := start, live := live + (if start then 1 else 0))
  }

  /** The first render: no API yet, the effect runs once and starts nothing. */
  function Mount(): (rt: Runtime)
    ensures rt.live == 0 && rt.mounted
  {
    RerunEffect(Runtime(Initial, false, false, 0, true))
  }

  /** A hover, the carousel API appearing or going away (it exists while the viewport is
      attached, which the loading and empty branches detach), or unmounting. */
  datatype CarouselEvent = Mouse(e: HoverEvent) | ApiChanged(present: bool) | Unmount

  /** One event. The effect re-runs only when one of its dependencies `[emblaApi,
      autoplayEnabled]` changed; unmounting runs the last cleanup; nothing happens to an
      unmounted component. */
  function Step(rt: Runtime, e: CarouselEvent): (r: Runtime)
    ensures !rt.mounted ==> r == rt
    ensures r.mounted <==> rt.mounted && !e.Unmount?
    ensures rt.mounted && e.Mouse? ==> r.hover == ApplyHover(rt.hover, e.e) && r.apiReady == rt.apiReady
    ensures rt.mounted && e.ApiChanged? ==> r.hover == rt.hover && r.apiReady == e.present
    ensures rt.mounted && e.Unmount? ==> !r.armed
  {
    if !rt.mounted then rt
    else
      match e
      case Mouse(he) =>
        var h := ApplyHover(rt.hover, he);
        if h.autoplay != rt.hover.autoplay then RerunEffect(rt.(hover := h)) else rt.(hover := h)
      case ApiChanged(present) =>
        if rt.apiReady == present then rt else RerunEffect(rt.(apiReady := present))
      case Unmount =>
        var live := if rt.armed && rt.live > 0 then rt.live - 1 else rt.live;
        rt.(armed := false, live := live, mounted := false)
  }

  function Run(rt: Runtime, es: seq<CarouselEvent>): Runtime
    decreases |es|
  {
    if |es| == 0 then rt else Run(Step(rt, es[0]), es[1..])
  }

  /** The timer bookkeeping: while mounted, exactly the interval of the last effect run is
      live, and it exists exactly when the API exists and autoplay is on; after teardown
      none is. */
  predicate TimerInvariant(rt: Runtime) {
    && Consistent(rt.hover)
    && (rt.mounted ==> rt.armed == WantsTimer(rt.apiReady, rt.hover.autoplay))
    && (!rt.mounted ==> !rt.armed)
    && rt.live == (if rt.armed then 1 else 0)
  }

  lemma StepKeepsTimerInvariant(rt: Runtime, e: CarouselEvent)
    requires TimerInvariant(rt)
    ensures TimerInvariant(Step(rt, e))
  {
    if rt.mounted && e.Mouse? {
      ApplyHoverConsistent(rt.hover, e.e);
    }
  }

  /** Over any sequence of hovers, API changes and teardown, at most one interval is live; one
      is live exactly when the component is mounted, the API exists and autoplay is on; and
      after teardown none is left to fire. */
  lemma {:induction false} AtMostOneTimer(es: seq<CarouselEvent>)
    ensures var rt := Run(Mount(), es);
            && rt.live <= 1
            && (rt.live == 1 <==> rt.mounted && rt.apiReady && rt.hover.autoplay)
            && (!rt.mounted ==> rt.live == 0)
  {
    RunKeepsTimerInvariant(Mount(), es);
  }

  lemma {:induction false} RunKeepsTimerInvariant(rt: Runtime, es: seq<CarouselEvent>)
    requires TimerInvariant(rt)
    ensures TimerInvariant(Run(rt, es))
    decreases |es|
  {
    if |es| > 0 {
      StepKeepsTimerInvariant(rt, es[0]);
      RunKeepsTimerInvariant(Step(rt, es[0]), es[1..]);
    }
  }

  // ---------------------------------------------------------------------------
  // `truncateContent`
  // ---------------------------------------------------------------------------

  /** `isHovered ? 300 : 100` */
  function MaxLength(isHovered: bool): (n: nat)
    ensures n == 100 || n == 300
    ensures n == 300 <==> isHovered
  {
    if isHovered then 300 else 100
  }

  /** `"..."` in code units. */
  const Ellipsis: seq<JsString.CodeUnit> := [0x2E, 0x2E, 0x2E]

  lemma EllipsisUnits()
    ensures JsString.Utf16("...") == Ellipsis
  {
  }

  /** `truncateContent(content, isHovered)` on the code units of the content: short content
      unchanged, long content cut to its first `maxLength` units followed by `"..."`. */
  function TruncateContent(content: seq<JsString.CodeUnit>, isHovered: bool): (r: seq<JsString.CodeUnit>)
    ensures |content| <= MaxLength(isHovered) ==> r == content
    ensures |content| > MaxLength(isHovered) ==>
              && |r| == MaxLength(isHovered) + 3
              && r[..MaxLength(isHovered)] == content[..MaxLength(isHovered)]
              && r[MaxLength(isHovered)..] == Ellipsis
  {
    var maxLength := MaxLength(isHovered);
    if |content| <= maxLength then content
    else JsString.Substring(content, 0, maxLength) + Ellipsis
  }

  /** A preview never exceeds the limit by more than the ellipsis, and what it shows is the
      start of the content. */
  lemma TruncateBounds(content: seq<JsString.CodeUnit>, isHovered: bool)
    ensures |TruncateContent(content, isHovered)| <= MaxLength(isHovered) + 3
    ensures var r := TruncateContent(content, isHovered);
            r == content || (|r| >= 3 && r[..|r| - 3] <= content)
  {
  }

  /** Truncating a preview again changes nothing. */
  lemma TruncateIdempotent(content: seq<JsString.CodeUnit>, isHovered: bool)
    ensures TruncateContent(TruncateContent(content, isHovered), isHovered) == TruncateContent(content, isHovered)
  {
    var m := MaxLength(isHovered);
    var r := TruncateContent(content, isHovered);
    if |content| > m {
      assert r == r[..m] + r[m..];
    }
  }

  /** Text of characters outside the Basic Multilingual Plane, which take two code units each. */
  lemma {:induction false} Utf16OfAstral(s: string)
    requires forall i :: 0 <= i < |s| ==> !JsString.IsBmp(s[i])
    ensures |JsString.Utf16(s)| == 2 * |s|
    ensures forall j :: 0 <= j < |s| ==> JsString.IsHighSurrogate(JsString.Utf16(s)[2 * j])
    decreases |s|
  {
    if |s| > 0 {
      Utf16OfAstral(s[1..]);
      var head := JsString.Utf16Char(s[0]);
      var tail := JsString.Utf16(s[1..]);
      assert JsString.Utf16(s) == head + tail;
      forall j | 0 < j < |s|
        ensures JsString.IsHighSurrogate(JsString.Utf16(s)[2 * j])
      {
        assert JsString.Utf16(s)[2 * j] == tail[2 * (j - 1)];
      }
    }
  }

  /** The limit counts code units, and the cut may split a pair. `"a"` and 60 emoji are 121
      units, so an unhovered preview keeps 100 of them, where counting characters would keep
      everything; the last kept unit is a lone high surrogate, right before the ellipsis. */
  lemma TruncateCountsCodeUnits(s: string)
    requires |s| == 61 && s[0] == 'a'
    requires forall i :: 1 <= i < |s| ==> s[i] == '\U{1F600}'
    ensures var r := TruncateContent(JsString.Utf16(s), false);
            && |r| == 103 && r[..100] == JsString.Utf16(s)[..100]
            && JsString.IsHighSurrogate(r[99]) && r[100] == '.' as int
  {
    var tail := JsString.Utf16(s[1..]);
    Utf16OfAstral(s[1..]);
    assert JsString.Utf16(s) == [0x61] + tail;
    assert JsString.IsHighSurrogate(tail[2 * 49]);
  }

  // ---------------------------------------------------------------------------
  // Company logos for tags
  // ---------------------------------------------------------------------------

  /** `COMPANY_LOGOS` */
  const CompanyLogos: map<string, string> := map[
    "meta" := "/logos/meta.svg",
    "apple" := "/logos/apple.svg",
    "amazon" := "/logos/amazon.svg",
    "google" := "/logos/google.svg",
    "microsoft" := "/logos/microsoft.svg",
    "nvidia" := "/logos/nvidia.svg"
  ]

  /** `tag.replace("company:", "").toLowerCase()`: the first `company:` removed, wherever it
      stands, then lower-cased. */
  function LogoKey(tag: string): (key: string)
    ensures forall i :: 0 <= i < |key| ==> !Ascii.IsUpper(key[i])
  {
    JsString.ToLowerCase(JsString.ReplaceFirst(tag, "company:", ""))
  }

  /** The logo a tag shows, looking the key up among the object's own six entries only. */
  function LogoFor(tag: string): (r: Option<string>)
    ensures r.Some? <==> LogoKey(tag) in CompanyLogos
    ensures r.Some? ==> r.value == CompanyLogos[LogoKey(tag)]
  {
    var key := LogoKey(tag);
    if key in CompanyLogos then Some(CompanyLogos[key]) else None
  }

  /** An avatar on a card: the tag and the logo it shows. */
  datatype Avatar = Avatar(tag: string, src: string)

  /** The avatars of a card, rendered with the corrected lookup `LogoFor`: one per tag that
      has one of the six logos, in tag order. The guard as written also renders an avatar for
      a tag whose key names an inherited member (see `ConstructorTagShowsAvatar`). */
  function Avatars(tags: seq<string>): (r: seq<Avatar>)
    ensures |r| <= |tags|
    ensures forall i :: 0 <= i < |r| ==> r[i].tag in tags && LogoFor(r[i].tag) == Some(r[i].src)
  {
    if |tags| == 0 then []
    else
      var rest := Avatars(tags[1..]);
      match LogoFor(tags[0])
      case Some(src) => [Avatar(tags[0], src)] + rest
      case None => rest
  }

  /** The avatars of two tag lists shown one after the other are the first list's avatars
      followed by the second's. */
  lemma {:induction false} AvatarsAppend(t1: seq<string>, t2: seq<string>)
    ensures Avatars(t1 + t2) == Avatars(t1) + Avatars(t2)
    decreases |t1|
  {
    if |t1| > 0 {
      var head := Avatars([t1[0]]);
      assert (t1 + t2)[0] == t1[0];
      assert (t1 + t2)[1..] == t1[1..] + t2;
      AvatarsCons(t1 + t2);
      AvatarsCons(t1);
      AvatarsAppend(t1[1..], t2);
      assert Avatars(t1 + t2) == head + (Avatars(t1[1..]) + Avatars(t2));
    } else {
      assert t1 + t2 == t2;
    }
  }

  /** The first tag's avatars come before the rest's. */
  lemma AvatarsCons(tags: seq<string>)
    requires |tags| > 0
    ensures Avatars(tags) == Avatars([tags[0]]) + Avatars(tags[1..])
  {
    AvatarsOfTag(tags[0]);
    if LogoFor(tags[0]).Some? {
      assert Avatars(tags) == [Avatar(tags[0], LogoFor(tags[0]).value)] + Avatars(tags[1..]);
    } else {
      assert Avatars(tags) == Avatars(tags[1..]);
    }
  }

  /** A single tag shows its avatar exactly when it has a logo, and nothing otherwise;
      with `AvatarsAppend` this fixes the order and the number of avatars of any list. */
  lemma AvatarsOfTag(tag: string)
    ensures Avatars([]) == []
    ensures LogoFor(tag).Some? ==> Avatars([tag]) == [Avatar(tag, LogoFor(tag).value)]
    ensures LogoFor(tag).None? ==> Avatars([tag]) == []
  {
    assert [tag][1..] == [];
  }

  /** Every tag that has a logo gets its avatar. */
  lemma {:induction false} AvatarsComplete(tags: seq<string>, i: nat)
    requires i < |tags| && LogoFor(tags[i]).Some?
    ensures Avatar(tags[i], LogoFor(tags[i]).value) in Avatars(tags)
    decreases i
  {
    var rest := Avatars(tags[1..]);
    if i > 0 {
      assert tags[1..][i - 1] == tags[i];
      AvatarsComplete(tags[1..], i - 1);
      assert Avatars(tags) == rest || Avatars(tags) == [Avatar(tags[0], LogoFor(tags[0]).value)] + rest;
    }
  }

  /** The key of a `company:`-prefixed tag is its lower-cased remainder. */
  lemma CompanyTagKey(rest: string)
    ensures LogoKey("company:" + rest) == JsString.ToLowerCase(rest)
  {
    JsString.ReplaceLeadingPattern("company:", rest);
  }

  lemma LogoForCompanyMeta()
    ensures LogoFor("company:meta") == Some("/logos/meta.svg")
  {
    CompanyTagKey("meta");
    assert "company:" + "meta" == "company:meta";
    assert JsString.ToLowerCase("meta") == "meta";
  }

  /** Case does not matter after the prefix. */
  lemma LogoForUpperCaseName()
    ensures LogoFor("company:NVIDIA") == Some("/logos/nvidia.svg")
  {
    CompanyTagKey("NVIDIA");
    assert "company:" + "NVIDIA" == "company:NVIDIA";
    assert JsString.ToLowerCase("NVIDIA") == "nvidia";
  }

  /** The prefix is optional: a bare company name shows its logo too. */
  lemma LogoForBareName()
    ensures LogoFor("Google") == Some("/logos/google.svg")
  {
    assert JsString.IndexOf("Google", "company:").None?;
    assert JsString.ToLowerCase("Google") == "google";
  }

  /** A company outside the six shows none. */
  lemma NoLogoForOtherCompany()
    ensures LogoFor("company:netflix") == None
  {
    CompanyTagKey("netflix");
    assert "company:" + "netflix" == "company:netflix";
    assert JsString.ToLowerCase("netflix") == "netflix";
  }

  // ---------------------------------------------------------------------------
  // The lookup as written: a plain object also answers for inherited members
  // ---------------------------------------------------------------------------

  /** The members every object literal inherits from `Object.prototype`. */
  const ObjectPrototypeMembers: set<string> := {
    "constructor", "hasOwnProperty", "isPrototypeOf", "propertyIsEnumerable",
    "toLocaleString", "toString", "valueOf", "__proto__",
    "__defineGetter__", "__defineSetter__", "__lookupGetter__", "__lookupSetter__"
  }

  /** What `COMPANY_LOGOS[key]` evaluates to on the object literal: an own entry, an
      inherited member, or `undefined`. */
  datatype Property = OwnLogo(path: string) | InheritedMember(name: string) | Undefined

  function PropertyAsWritten(key: string): (p: Property)
    ensures p.OwnLogo? <==> key in CompanyLogos
    ensures p.InheritedMember? <==> key !in CompanyLogos && key in ObjectPrototypeMembers
  {
    if key in CompanyLogos then OwnLogo(CompanyLogos[key])
    else if key in ObjectPrototypeMembers then InheritedMember(key)
    else Undefined
  }

  /** The render guard `COMPANY_LOGOS[...] && <Avatar .../>` as written: own entries are
      non-empty strings and inherited members are functions or objects, so everything but
      `undefined` is truthy. */
  predicate ShowsAvatarAsWritten(tag: string) {
    !PropertyAsWritten(LogoKey(tag)).Undefined?
  }

  /** A string with no upper-case letter lower-cases to itself. */
  lemma LowerOfLowerCase(s: string)
    requires forall i :: 0 <= i < |s| ==> 'a' <= s[i] <= 'z'
    ensures JsString.ToLowerCase(s) == s
  {
  }

  /** The tag `company:constructor` is no company, yet the guard as written lets it through:
      the card renders an avatar whose image source is the `Object` constructor. */
  lemma ConstructorTagShowsAvatar()
    ensures ShowsAvatarAsWritten("company:constructor")
    ensures LogoFor("company:constructor").None?
  {
    ConstructorKey();
    ConstructorIsInherited();
  }

  lemma ConstructorKey()
    ensures LogoKey("company:constructor") == "constructor"
  {
    calc {
      LogoKey("company:constructor");
      { assert "company:" + "constructor" == "company:constructor"; }
      LogoKey("company:" + "constructor");
      { CompanyTagKey("constructor"); }
      JsString.ToLowerCase("constructor");
      { ConstructorLowerCase(); }
      "constructor";
    }
  }

  lemma ConstructorLowerCase()
    ensures JsString.ToLowerCase("constructor") == "constructor"
  {
    LowerOfLowerCase("constructor");
  }

  lemma ConstructorIsInherited()
    ensures PropertyAsWritten("constructor") == InheritedMember("constructor")
  {
    assert CompanyLogos.Keys == {"meta", "apple", "amazon", "google", "microsoft", "nvidia"};
    assert "constructor" in ObjectPrototypeMembers;
  }

  /** Lower-casing the key leaves only two inherited members within reach, `constructor` and
      `__proto__`; every other one has an upper-case letter. */
  lemma {:induction false} ReachableInheritedMembers(tag: string)
    ensures PropertyAsWritten(LogoKey(tag)).InheritedMember? ==> LogoKey(tag) in {"constructor", "__proto__"}
  {
    NotKeyWithUpper(tag, "hasOwnProperty", 3);
    NotKeyWithUpper(tag, "isPrototypeOf", 2);
    NotKeyWithUpper(tag, "propertyIsEnumerable", 8);
    NotKeyWithUpper(tag, "toLocaleString", 2);
    NotKeyWithUpper(tag, "toString", 2);
    NotKeyWithUpper(tag, "valueOf", 5);
    NotKeyWithUpper(tag, "__defineGetter__", 8);
    NotKeyWithUpper(tag, "__defineSetter__", 8);
    NotKeyWithUpper(tag, "__lookupGetter__", 8);
    NotKeyWithUpper(tag, "__lookupSetter__", 8);
  }

  /** A name with an upper-case letter is never a lookup key. */
  lemma NotKeyWithUpper(tag: string, name: string, j: nat)
    requires j < |name| && Ascii.IsUpper(name[j])
    ensures LogoKey(tag) != name
  {
    var key := LogoKey(tag);
    assert j < |key| ==> !Ascii.IsUpper(key[j]);
  }

  /** Apart from those two keys, the guard as written and the own-entry lookup agree. */
  lemma AsWrittenAgreesElsewhere(tag: string)
    ensures ShowsAvatarAsWritten(tag) <==> LogoFor(tag).Some? || LogoKey(tag) in {"constructor", "__proto__"}
  {
    ReachableInheritedMembers(tag);
  }
}

=== FILE: template_keys.dfy ===
/** The react-query cache keys for templates and the two read hooks that use them. A key is
    a sequence of parts; every key extends the root `["templates"]`, list keys extend
    `[..., "list"]` and detail keys `[..., "detail"]`. Caching, fetching and invalidation
    are the library's and are not modelled. */
module TemplateKeys {

  /** One element of a key: a string, or the `{ filters }` object of a filtered list key.
      Filter values are `unknown` in the source; they are modelled as strings. */
  datatype KeyPart = Name(name: string) | Filters(filters: map<string, string>)

  type QueryKey = seq<KeyPart>

  predicate IsPrefix(p: QueryKey, k: QueryKey) {
    |p| <= |k| && k[..|p|] == p
  }

  /** `templateKeys.all` */
  const All: QueryKey := [Name("templates")]

  /** `templateKeys.lists()` */
  function Lists(): (k: QueryKey)
    ensures |k| == 2 && IsPrefix(All, k) && k[1] == Name("list")
  {
    All + [Name("list")]
  }

  /** `templateKeys.list(filters)` */
  function List(filters: map<string, string>): (k: QueryKey)
    ensures |k| == 3 && IsPrefix(Lists(), k) && k[2] == Filters(filters)
  {
    Lists() + [Filters(filters)]
  }

  /** `templateKeys.details()` */
  function Details(): (k: QueryKey)
    ensures |k| == 2 && IsPrefix(All, k) && k[1] == Name("detail")
  {
    All + [Name("detail")]
  }

  /** `templateKeys.detail(id)` */
  function Detail(id: string): (k: QueryKey)
    ensures |k| == 3 && IsPrefix(Details(), k) && k[2] == Name(id)
  {
    Details() + [Name(id)]
  }

  /** Every key the factory can build. */
  datatype KeyRequest = AllKey | ListsKey | ListKey(filters: map<string, string>) | DetailsKey | DetailKey(id: string)

  function Build(r: KeyRequest): QueryKey {
    match r
    case AllKey => All
    case ListsKey => Lists()
    case ListKey(f) => List(f)
    case DetailsKey => Details()
    case DetailKey(id) => Detail(id)
  }

  predicate InListFamily(r: KeyRequest) {
    r.ListsKey? || r.ListKey?
  }

  predicate InDetailFamily(r: KeyRequest) {
    r.DetailsKey? || r.DetailKey?
  }

  /** `all` is the one-part key `["templates"]` and a prefix of every key built. */
  lemma EveryKeyExtendsAll(r: KeyRequest)
    ensures All == [Name("templates")]
    ensures IsPrefix(All, Build(r))
  {
  }

  /** `lists()` is a strict prefix of every filtered list key, and filtered list keys are
      equal exactly when their filters are. */
  lemma ListKeysExtendLists(f: map<string, string>, g: map<string, string>)
    ensures IsPrefix(Lists(), List(f)) && |Lists()| < |List(f)|
    ensures List(f) == List(g) <==> f == g
  {
    if List(f) == List(g) {
      assert List(f)[2] == List(g)[2];
    }
  }

  /** `detail` is injective: two ids share a detail key only when they are equal. */
  lemma DetailInjective(a: string, b: string)
    ensures Detail(a) == Detail(b) <==> a == b
  {
    if Detail(a) == Detail(b) {
      assert Detail(a)[2] == Detail(b)[2];
    }
  }

  /** A list-family key and a detail-family key agree on `all` and part ways right after it:
      neither is a prefix of the other, so no prefix narrower than `all` covers both. */
  lemma ListsAndDetailsDiverge(l: KeyRequest, d: KeyRequest)
    requires InListFamily(l) && InDetailFamily(d)
    ensures Build(l)[..1] == Build(d)[..1] == All
    ensures Build(l)[1] != Build(d)[1]
    ensures !IsPrefix(Build(l), Build(d)) && !IsPrefix(Build(d), Build(l))
  {
    assert Build(l)[1] == Name("list") && Build(d)[1] == Name("detail");
    assert "list" != "detail";
  }

  /** The options handed to `useQuery`: its key and whether it may run. */
  datatype Query = Query(key: QueryKey, enabled: bool)

  /** `!!id` for a string: every string but the empty one is truthy. */
  predicate Truthy(s: string) {
    s != ""
  }

  /** `useTemplates()`: keyed by `lists()`, always enabled (the library's default). */
  function UseTemplates(): (q: Query)
    ensures q.key == Lists() && q.enabled
  {
    Query(Lists(), true)
  }

  /** `useTemplate(id)`: keyed by `detail(id)`, enabled only for a non-empty id. */
  function UseTemplate(id: string): (q: Query)
    ensures q.key == Detail(id)
    ensures q.enabled <==> |id| > 0
  {
    Query(Detail(id), Truthy(id))
  }

  /** Two detail queries share a cache entry exactly when they ask for the same id, and never
      share one with the list query. */
  lemma DetailQueriesSeparate(a: string, b: string)
    ensures UseTemplate(a).key == UseTemplate(b).key <==> a == b
    ensures UseTemplate(a).key != UseTemplates().key
  {
    DetailInjective(a, b);
    ListsAndDetailsDiverge(ListsKey, DetailKey(a));
  }
}

=== FILE: templatify.dfy ===
/** The markdown templatifier: a walk over mistune's AST that replaces content nodes by
    numbered placeholder tokens such as `[Paragraph 1]`, `{{Item 2}}` or a fenced `[Code 1]`.
    Each token type has its own counter, threaded through the whole traversal in document
    order. Parsing markdown into the AST and rendering the rewritten AST back to text are
    mistune's work and are not modelled: the model starts from the AST and stops at the
    rewritten tree. */
module MarkdownTemplatify {
  import opened Wrappers
  import PyString

  // ---------------------------------------------------------------------------
  // Data model
  // ---------------------------------------------------------------------------

  /** `token_style`: `"bracket"` or `"curly"`; pydantic rejects any other value before the
      rewrite runs. */
  datatype TokenStyle = Bracket | Curly

  /** `verbosity`: only `"outline"` changes the rewrite. */
  datatype Verbosity = Full | Compact | Outline

  /** The options one `templatify` call fixes for its whole traversal. */
  datatype Options = Options(style: TokenStyle, verbosity: Verbosity)

  /** A node of mistune's AST: its `type`, the `level` entry of its `attrs` (present on
      headings), its `raw` text (present on text nodes) and its `children`. `Pruned` is the
      Python `None` that the rewrite leaves in place of a pruned heading. */
  datatype Node =
    | Pruned
    | Elem(kind: string, level: Option<int>, raw: Option<string>, children: seq<Node>)

  /** `TemplatifyContext.counters`: the last number issued per token type. */
  type Counters = map<string, nat>

  /** A node rewritten, with the counters after it. */
  datatype Emitted = Emitted(node: Node, counters: Counters)

  /** A sequence of nodes rewritten, with the counters after the last of them. */
  datatype EmittedAll = EmittedAll(nodes: seq<Node>, counters: Counters)

  /** The counter of `t`, reading a missing entry as 0, as `_make_token` initialises it. */
  function Count(c: Counters, t: string): nat {
    if t in c then c[t] else 0
  }

  /** A parsed AST node: mistune never produces `None`, and the rewrite reads `type` from
      every node it looks at. */
  predicate Input(n: Node) {
    n.Elem? && forall i :: 0 <= i < |n.children| ==> Input(n.children[i])
  }

  predicate InputAll(xs: seq<Node>) {
    forall i :: 0 <= i < |xs| ==> Input(xs[i])
  }

  /** `node.get("attrs", {}).get("level", 1)` */
  function Level(n: Node): int
    requires n.Elem?
  {
    n.level.GetOr(1)
  }

  /** A heading the outline verbosity drops: level deeper than 3. */
  predicate PrunedHeading(n: Node, v: Verbosity) {
    n.Elem? && n.kind == "heading" && v == Outline && Level(n) > 3
  }

  /** A paragraph none of whose children is anything but a text node. */
  predicate AllText(xs: seq<Node>) {
    forall i :: 0 <= i < |xs| ==> xs[i].Elem? && xs[i].kind == "text"
  }

  /** The node kinds replaced wholesale by a token, and the token type each one gets; the
      last two are Python's `type_.capitalize()`. */
  function WholesaleToken(kind: string): Option<string> {
    if kind == "block_code" then Some("Code")
    else if kind == "image" then Some("Image")
    else if kind == "link" then Some("Link")
    else if kind == "table" || kind == "block_quote" then Some(PyString.Capitalize(kind))
    else None
  }

  // ---------------------------------------------------------------------------
  // Token text (`_make_token`)
  // ---------------------------------------------------------------------------

  /** `f"{token_type} {n}"` */
  function Label(t: string, n: nat): string {
    t + " " + PyString.Decimal(n)
  }

  /** The text of token `n` of type `t`: a fenced block for `Code` whatever the style,
      otherwise the label in double braces (curly) or square brackets (bracket). */
  function TokenText(t: string, n: nat, style: TokenStyle): (text: string)
    ensures t == "Code" ==> text == "```\n[" + Label(t, n) + "]\n```"
    ensures t != "Code" && style == Curly ==> text == "{{" + Label(t, n) + "}}"
    ensures t != "Code" && style == Bracket ==> text == "[" + Label(t, n) + "]"
  {
    if t == "Code" then "```\n[" + Label(t, n) + "]\n```"
    else if style == Curly then "{{" + Label(t, n) + "}}"
    else "[" + Label(t, n) + "]"
  }

  /** The node `_make_token` returns: a `block_text` holding one text node. */
  function TokenNode(text: string): Node {
    Elem("block_text", None, None, [Elem("text", None, Some(text), [])])
  }

  /** `_make_token`: bump the counter of `t` (starting from 0) and emit the token numbered
      with the bumped value. */
  function MakeToken(t: string, style: TokenStyle, c: Counters): (r: Emitted)
    ensures r.counters.Keys == c.Keys + {t}
    ensures r.counters[t] == Count(c, t) + 1
    ensures forall k :: k in c && k != t ==> r.counters[k] == c[k]
    ensures r.node == TokenNode(TokenText(t, r.counters[t], style))
  {
    var n := Count(c, t) + 1;
    Emitted(TokenNode(TokenText(t, n, style)), c[t := n])
  }

  // ---------------------------------------------------------------------------
  // The rewrite (`_rewrite`)
  // ---------------------------------------------------------------------------

  /** `_rewrite`: one node, threading the counters. Kept nodes keep their kind; tokens are
      `block_text`; only a pruned heading becomes `None`; no counter ever goes down. A kept
      node other than a blank line is the same node with only its children replaced, one
      rewritten child per original child. */
  function Rewrite(n: Node, o: Options, c: Counters): (r: Emitted)
    requires Input(n)
    ensures r.node.Pruned? <==> PrunedHeading(n, o.verbosity)
    ensures r.node.Elem? ==> r.node.kind == n.kind || r.node.kind == "block_text"
    ensures r.node.Elem? && r.node.kind == n.kind && n.kind != "blank_line" ==>
              r.node == n.(children := r.node.children) && |r.node.children| == |n.children|
    ensures c.Keys <= r.counters.Keys
    ensures forall t :: Count(c, t) <= Count(r.counters, t)
    decreases n
  {
    if n.kind == "heading" then
      if PrunedHeading(n, o.verbosity) then Emitted(Pruned, c)
      else
        var kids := RewriteAll(n.children, o, c);
        Emitted(n.(children := kids.nodes), kids.counters)
    else if n.kind == "paragraph" then
      if AllText(n.children) then MakeToken("Paragraph", o.style, c)
      else
        var kids := RewriteAll(n.children, o, c);
        Emitted(n.(children := kids.nodes), kids.counters)
    else if n.kind == "list" then
      var kids := ListChildren(n.children, o.style, c);
      Emitted(n.(children := kids.nodes), kids.counters)
    else if WholesaleToken(n.kind).Some? then
      MakeToken(WholesaleToken(n.kind).value, o.style, c)
    else if n.kind == "blank_line" then
      Emitted(Elem("blank_line", None, None, []), c)
    else
      var kids := RewriteAll(n.children, o, c);
      Emitted(n.(children := kids.nodes), kids.counters)
  }

  /** `[_rewrite(c, ctx) for c in children]`: left to right, position by position. */
  function RewriteAll(xs: seq<Node>, o: Options, c: Counters): (r: EmittedAll)
    requires InputAll(xs)
    ensures |r.nodes| == |xs|
    ensures c.Keys <= r.counters.Keys
    ensures forall t :: Count(c, t) <= Count(r.counters, t)
    decreases xs
  {
    if |xs| == 0 then EmittedAll([], c)
    else
      var first := Rewrite(xs[0], o, c);
      var rest := RewriteAll(xs[1..], o, first.counters);
      EmittedAll([first.node] + rest.nodes, rest.counters)
  }

  predicate IsListItem(n: Node) {
    n.Elem? && n.kind == "list_item"
  }

  /** How many of `xs` are list items. */
  function ItemCount(xs: seq<Node>): nat {
    if |xs| == 0 then 0 else (if IsListItem(xs[0]) then 1 else 0) + ItemCount(xs[1..])
  }

  /** The children of a list: each `list_item` becomes an `Item` token, in order; every other
      child is kept exactly as it was, without being rewritten. */
  function ListChildren(xs: seq<Node>, style: TokenStyle, c: Counters): (r: EmittedAll)
    requires InputAll(xs)
    ensures |r.nodes| == |xs|
    ensures forall i :: 0 <= i < |xs| && xs[i].kind != "list_item" ==> r.nodes[i] == xs[i]
    ensures c.Keys <= r.counters.Keys
    ensures forall i :: 0 <= i < |xs| ==> !IsListItem(r.nodes[i])
    ensures forall t :: Count(r.counters, t) == Count(c, t) + (if t == "Item" then ItemCount(xs) else 0)
    decreases xs
  {
    if |xs| == 0 then EmittedAll([], c)
    else
      var first := if xs[0].kind == "list_item" then MakeToken("Item", style, c) else Emitted(xs[0], c);
      var rest := ListChildren(xs[1..], style, first.counters);
      EmittedAll([first.node] + rest.nodes, rest.counters)
  }

  /** `templatify` up to rendering: every top-level node rewritten with counters that start
      empty on each call. */
  function Templatify(ast: seq<Node>, o: Options): (out: seq<Node>)
    requires InputAll(ast)
    ensures |out| == |ast|
  {
    RewriteAll(ast, o, map[]).nodes
  }
}

=== FILE: templatify_examples.dfy ===
/** The templatifier's test cases, stated on the AST mistune produces for each input and the
    rewritten AST whose rendering is the expected output. */
module TemplatifyExamples {
  import opened Wrappers
  import PyString
  import opened MarkdownTemplatify

  function Text(s: string): Node {
    Elem("text", None, Some(s), [])
  }

  function Heading(level: int, title: string): Node {
    Elem("heading", Some(level), None, [Text(title)])
  }

  const BlankLine: Node := Elem("blank_line", None, None, [])

  function Paragraph(children: seq<Node>): Node {
    Elem("paragraph", None, None, children)
  }

  function ListItem(s: string): Node {
    Elem("list_item", None, None, [Elem("block_text", None, None, [Text(s)])])
  }

  lemma SmallNumerals()
    ensures PyString.Decimal(1) == "1" && PyString.Decimal(2) == "2"
  {
    assert PyString.DigitChar(1) == '1';
    assert PyString.DigitChar(2) == '2';
  }

  /** The token texts the test cases expect. */
  lemma ExpectedTokenTexts()
    ensures TokenText("Paragraph", 1, Bracket) == "[Paragraph 1]"
    ensures TokenText("Paragraph", 2, Bracket) == "[Paragraph 2]"
    ensures TokenText("Paragraph", 1, Curly) == "{{Paragraph 1}}"
    ensures TokenText("Item", 1, Bracket) == "[Item 1]"
    ensures TokenText("Item", 2, Bracket) == "[Item 2]"
    ensures TokenText("Image", 1, Bracket) == "[Image 1]"
    ensures TokenText("Code", 1, Bracket) == "```\n[Code 1]\n```"
    ensures TokenText("Code", 1, Curly) == "```\n[Code 1]\n```"
  {
    SmallNumerals();
    assert Label("Paragraph", 1) == "Paragraph 1";
    assert Label("Paragraph", 2) == "Paragraph 2";
    assert Label("Item", 1) == "Item 1";
    assert Label("Item", 2) == "Item 2";
    assert Label("Image", 1) == "Image 1";
    assert Label("Code", 1) == "Code 1";
  }

  /** A text node is kept as it is (it has no children to rewrite). */
  lemma TextKept(s: string, o: Options, c: Counters)
    ensures Rewrite(Text(s), o, c) == Emitted(Text(s), c)
  {
    assert RewriteAll([], o, c) == EmittedAll([], c);
  }

  /** A heading over one text node is kept as it is, when not pruned. */
  lemma HeadingKept(level: int, s: string, o: Options, c: Counters)
    requires !(o.verbosity == Outline && level > 3)
    ensures Rewrite(Heading(level, s), o, c) == Emitted(Heading(level, s), c)
  {
    TextKept(s, o, c);
    assert RewriteAll([Text(s)], o, c) == EmittedAll([Text(s)], c);
  }

  lemma BlankKept(o: Options, c: Counters)
    ensures Rewrite(BlankLine, o, c) == Emitted(BlankLine, c)
  {
  }

  /** A paragraph of one text node becomes the next `Paragraph` token. */
  lemma PlainParagraph(s: string, o: Options, c: Counters)
    ensures Rewrite(Paragraph([Text(s)]), o, c) == MakeToken("Paragraph", o.style, c)
  {
    assert AllText([Text(s)]);
  }

  /** `# Title` then a plain paragraph: the heading stays, the paragraph becomes
      `[Paragraph 1]`. */
  lemma ParagraphBecomesToken()
    ensures
      var ast := [Heading(1, "Title"), BlankLine,
                  Paragraph([Text("This is an explanatory paragraph that should become a token.")])];
      Templatify(ast, Options(Bracket, Full)) == [Heading(1, "Title"), BlankLine, TokenNode("[Paragraph 1]")]
  {
    var o := Options(Bracket, Full);
    var p := Paragraph([Text("This is an explanatory paragraph that should become a token.")]);
    HeadingKept(1, "Title", o, map[]);
    BlankKept(o, map[]);
    PlainParagraph("This is an explanatory paragraph that should become a token.", o, map[]);
    ExpectedTokenTexts();
    assert MakeToken("Paragraph", Bracket, map[]).node == TokenNode("[Paragraph 1]");
    assert RewriteAll([p], o, map[]).nodes == [TokenNode("[Paragraph 1]")];
    assert RewriteAll([BlankLine, p], o, map[]).nodes == [BlankLine, TokenNode("[Paragraph 1]")];
  }

  /** A two-item bullet list: the items become `[Item 1]` and `[Item 2]`, in order. */
  lemma ListItemsBecomeTokens()
    ensures
      var items := [ListItem("First bullet"), ListItem("A second bullet item")];
      var list := Elem("list", None, None, items);
      Templatify([list], Options(Bracket, Full)) ==
        [list.(children := [TokenNode("[Item 1]"), TokenNode("[Item 2]")])]
  {
    var first := MakeToken("Item", Bracket, map[]);
    ExpectedTokenTexts();
    assert first.node == TokenNode("[Item 1]");
    assert MakeToken("Item", Bracket, first.counters).node == TokenNode("[Item 2]");
    ListChildrenTwoItems(ListItem("First bullet"), ListItem("A second bullet item"), Bracket, map[]);
  }

  /** Two list items become two `Item` tokens, the second numbered after the first. */
  lemma ListChildrenTwoItems(a: Node, b: Node, style: TokenStyle, c: Counters)
    requires Input(a) && Input(b) && a.kind == "list_item" && b.kind == "list_item"
    ensures var first := MakeToken("Item", style, c);
            ListChildren([a, b], style, c).nodes == [first.node, MakeToken("Item", style, first.counters).node]
  {
    var first := MakeToken("Item", style, c);
    assert [a, b][1..] == [b];
    assert ListChildren([b], style, first.counters).nodes == [MakeToken("Item", style, first.counters).node];
  }

  /** A fenced `tsx` block: the whole block becomes the fenced `[Code 1]`. */
  lemma CodeBlockBecomesFencedToken()
    ensures
      var code := Elem("block_code", None, Some("const x = 1;\nconsole.log(x);\n"), []);
      Templatify([code], Options(Bracket, Full)) == [TokenNode("```\n[Code 1]\n```")]
  {
    ExpectedTokenTexts();
  }

  /** A paragraph holding only an image is kept; the image inside it becomes `[Image 1]`. */
  lemma ImageInsideParagraph()
    ensures
      var image := Elem("image", None, None, [Text("cute-dog")]);
      Templatify([Paragraph([image])], Options(Bracket, Full)) == [Paragraph([TokenNode("[Image 1]")])]
  {
    var image := Elem("image", None, None, [Text("cute-dog")]);
    var o := Options(Bracket, Full);
    ExpectedTokenTexts();
    assert !AllText([image]);
    assert Rewrite(image, o, map[]).node == TokenNode("[Image 1]");
    assert RewriteAll([image], o, map[]).nodes == [TokenNode("[Image 1]")];
  }

  /** The curly style: the paragraph under `## Sub-heading` becomes `{{Paragraph 1}}`. */
  lemma CurlyStyleToken()
    ensures
      var ast := [Heading(2, "Sub-heading"), BlankLine, Paragraph([Text("Another paragraph that needs a token.")])];
      Templatify(ast, Options(Curly, Full)) == [Heading(2, "Sub-heading"), BlankLine, TokenNode("{{Paragraph 1}}")]
  {
    var o := Options(Curly, Full);
    var p := Paragraph([Text("Another paragraph that needs a token.")]);
    HeadingKept(2, "Sub-heading", o, map[]);
    BlankKept(o, map[]);
    PlainParagraph("Another paragraph that needs a token.", o, map[]);
    ExpectedTokenTexts();
    assert MakeToken("Paragraph", Curly, map[]).node == TokenNode("{{Paragraph 1}}");
    assert RewriteAll([p], o, map[]).nodes == [TokenNode("{{Paragraph 1}}")];
    assert RewriteAll([BlankLine, p], o, map[]).nodes == [BlankLine, TokenNode("{{Paragraph 1}}")];
  }

  /** The curly style never reaches code tokens: they stay fenced brackets. */
  lemma CodeIgnoresCurlyStyle()
    ensures
      var code := Elem("block_code", None, Some("x"), []);
      Templatify([code], Options(Curly, Full)) == [TokenNode("```\n[Code 1]\n```")]
  {
    ExpectedTokenTexts();
  }

  /** Outline verbosity prunes a level-4 heading to `None` but keeps a level-3 one. */
  lemma OutlinePrunesDeepHeadings()
    ensures Templatify([Heading(4, "Deep"), Heading(3, "Kept")], Options(Bracket, Outline)) ==
              [Pruned, Heading(3, "Kept")]
  {
    var o := Options(Bracket, Outline);
    HeadingKept(3, "Kept", o, map[]);
    assert RewriteAll([Heading(3, "Kept")], o, map[]).nodes == [Heading(3, "Kept")];
  }

  /** Counters are per type: a paragraph, an image paragraph and another paragraph number
      `Paragraph 1`, `Image 1`, `Paragraph 2`. */
  lemma CountersArePerType()
    ensures
      var ast := [Paragraph([Text("a")]), Paragraph([Elem("image", None, None, [])]), Paragraph([Text("b")])];
      Templatify(ast, Options(Bracket, Full)) ==
        [TokenNode("[Paragraph 1]"), Paragraph([TokenNode("[Image 1]")]), TokenNode("[Paragraph 2]")]
  {
    var o := Options(Bracket, Full);
    var c1 := map["Paragraph" := 1];
    var c2 := map["Paragraph" := 1, "Image" := 1];
    PlainParagraphNumbered("a", o, map[], 1);
    ImageParagraphSecond(o, c1, c2);
    PlainParagraphNumbered("b", o, c2, 2);
    RewriteAllThree(Paragraph([Text("a")]), Paragraph([Elem("image", None, None, [])]), Paragraph([Text("b")]), o, map[]);
  }

  /** Three top-level nodes are rewritten one after the other, threading the counters. */
  lemma RewriteAllThree(a: Node, b: Node, d: Node, o: Options, c: Counters)
    requires Input(a) && Input(b) && Input(d)
    ensures var ra := Rewrite(a, o, c);
            var rb := Rewrite(b, o, ra.counters);
            RewriteAll([a, b, d], o, c).nodes == [ra.node, rb.node, Rewrite(d, o, rb.counters).node]
  {
    var ra := Rewrite(a, o, c);
    var rb := Rewrite(b, o, ra.counters);
    assert [a, b, d][1..] == [b, d];
    assert [b, d][1..] == [d];
    assert RewriteAll([d], o, rb.counters).nodes == [Rewrite(d, o, rb.counters).node];
  }

  /** A plain paragraph seen after `n - 1` others becomes `[Paragraph n]`, for n of 1 or 2. */
  lemma PlainParagraphNumbered(s: string, o: Options, c: Counters, n: nat)
    requires o.style == Bracket && (n == 1 || n == 2) && Count(c, "Paragraph") == n - 1
    ensures Rewrite(Paragraph([Text(s)]), o, c).node == TokenNode(if n == 1 then "[Paragraph 1]" else "[Paragraph 2]")
    ensures Rewrite(Paragraph([Text(s)]), o, c).counters == c["Paragraph" := n]
  {
    PlainParagraph(s, o, c);
    ExpectedTokenTexts();
  }

  /** The image paragraph after one plain paragraph: its image becomes `Image 1`. */
  lemma ImageParagraphSecond(o: Options, c1: Counters, c2: Counters)
    requires o == Options(Bracket, Full)
    requires c1 == map["Paragraph" := 1] && c2 == map["Paragraph" := 1, "Image" := 1]
    ensures Rewrite(Paragraph([Elem("image", None, None, [])]), o, c1) ==
              Emitted(Paragraph([TokenNode("[Image 1]")]), c2)
  {
    var image := Elem("image", None, None, []);
    ExpectedTokenTexts();
    assert [image][0].kind != "text";
    assert Rewrite(image, o, c1) == Emitted(TokenNode("[Image 1]"), c2);
    assert RewriteAll([image], o, c1) == EmittedAll([TokenNode("[Image 1]")], c2);
  }
}

=== FILE: templatify_numbering.dfy ===
/** Token numbers read back from the rewritten tree: for each token type, the numbers the
    templatifier writes into the output run 1, 2, ..., N in document order, each used once,
    where N is the number of tokens of that type the input calls for. */
module TemplatifyNumbering {
  import opened Wrappers
  import PyString
  import opened MarkdownTemplatify
  import TemplatifyProperties

  // ---------------------------------------------------------------------------
  // Reading a token back
  // ---------------------------------------------------------------------------

  /** The text of a token of type `t` before its number. */
  function Opening(t: string, style: TokenStyle): string {
    if t == "Code" then "```\n[" + t + " "
    else if style == Curly then "{{" + t + " "
    else "[" + t + " "
  }

  /** The text of a token of type `t` after its number. */
  function Closing(t: string, style: TokenStyle): string {
    if t == "Code" then "]\n```"
    else if style == Curly then "}}"
    else "]"
  }

  lemma TokenTextParts(t: string, n: nat, style: TokenStyle)
    ensures TokenText(t, n, style) == Opening(t, style) + PyString.Decimal(n) + Closing(t, style)
  {
    var d := PyString.Decimal(n);
    assert Label(t, n) == t + " " + d;
    if t == "Code" {
      assert "```\n[" + (t + " " + d) + "]\n```" == ("```\n[" + t + " ") + d + "]\n```";
    } else if style == Curly {
      assert "{{" + (t + " " + d) + "}}" == ("{{" + t + " ") + d + "}}";
    } else {
      assert "[" + (t + " " + d) + "]" == ("[" + t + " ") + d + "]";
    }
  }

  /** The number a type-`t` token text carries: the numeral between the opening and the
      closing, accepted only in the shortest form `str` writes. */
  function TokenNumber(text: string, t: string, style: TokenStyle): (r: Option<nat>)
    ensures r.Some? ==> text == TokenText(t, r.value, style)
  {
    var o, c := Opening(t, style), Closing(t, style);
    if |o| + |c| <= |text| && text[..|o|] == o && text[|text| - |c|..] == c then
      var d := text[|o|..|text| - |c|];
      if PyString.AllDigits(d) && PyString.Decimal(PyString.ValueOf(d)) == d then
        TokenReassembled(text, t, style, PyString.ValueOf(d));
        Some(PyString.ValueOf(d))
      else None
    else None
  }

  /** A text with a token's opening and closing around the numeral of `k` is that token. */
  lemma TokenReassembled(text: string, t: string, style: TokenStyle, k: nat)
    requires |Opening(t, style)| + |Closing(t, style)| <= |text|
    requires text[..|Opening(t, style)|] == Opening(t, style)
    requires text[|text| - |Closing(t, style)|..] == Closing(t, style)
    requires text[|Opening(t, style)|..|text| - |Closing(t, style)|] == PyString.Decimal(k)
    ensures text == TokenText(t, k, style)
  {
    var o, c := |Opening(t, style)|, |Closing(t, style)|;
    TokenTextParts(t, k, style);
    assert text == text[..o] + text[o..|text| - c] + text[|text| - c..];
  }

  /** Every token text reads back as the number it was made with. */
  lemma TokenNumberOfText(t: string, n: nat, style: TokenStyle)
    ensures TokenNumber(TokenText(t, n, style), t, style) == Some(n)
  {
    var text := TokenText(t, n, style);
    var o, c, d := Opening(t, style), Closing(t, style), PyString.Decimal(n);
    TokenTextParts(t, n, style);
    assert text[..|o|] == o;
    assert text[|text| - |c|..] == c;
    assert text[|o|..|text| - |c|] == d;
    PyString.DecimalRoundTrip(n);
  }

  /** A text node with no children, the only child of a token. */
  predicate TextLeaf(m: Node) {
    m.Elem? && m.kind == "text" && m.level.None? && m.raw.Some? && m.children == []
  }

  /** The number of the type-`t` token `m` is, if it is one: a `block_text` holding one
      text node whose text is a type-`t` token text. */
  function TokenNumberOf(m: Node, t: string, style: TokenStyle): (r: Option<nat>)
    ensures r.Some? ==> m == TokenNode(TokenText(t, r.value, style))
  {
    if m.Elem? && m.kind == "block_text" && m.level.None? && m.raw.None?
       && |m.children| == 1 && TextLeaf(m.children[0])
    then
      var r := TokenNumber(m.children[0].raw.value, t, style);
      assert m.children == [m.children[0]];
      r
    else None
  }

  /** A token node is read back as its own type and number, and as no other type's token. */
  lemma TokenNodeNumber(tt: string, n: nat, t: string, style: TokenStyle)
    ensures tt == t ==> TokenNumberOf(TokenNode(TokenText(tt, n, style)), t, style) == Some(n)
    ensures TokenNumberOf(TokenNode(TokenText(tt, n, style)), t, style).Some? ==>
              tt == t && TokenNumberOf(TokenNode(TokenText(tt, n, style)), t, style).value == n
  {
    var r := TokenNumberOf(TokenNode(TokenText(tt, n, style)), t, style);
    if tt == t {
      TokenNumberOfText(t, n, style);
    }
    if r.Some? {
      TemplatifyProperties.TokenTextInjective(tt, n, t, r.value, style);
    }
  }

  // ---------------------------------------------------------------------------
  // The numbers in a tree, in pre-order
  // ---------------------------------------------------------------------------

  /** The numbers of the type-`t` tokens in `m`, in document order. A token is a leaf of
      this walk; everything else is looked into. */
  function TokenNumbers(m: Node, t: string, style: TokenStyle): seq<nat>
    decreases m
  {
    if m.Pruned? then []
    else match TokenNumberOf(m, t, style)
      case Some(k) => [k]
      case None => TokenNumbersAll(m.children, t, style)
  }

  function TokenNumbersAll(ms: seq<Node>, t: string, style: TokenStyle): seq<nat>
    decreases ms
  {
    if |ms| == 0 then [] else TokenNumbers(ms[0], t, style) + TokenNumbersAll(ms[1..], t, style)
  }

  /** The numbers after `lo` up to and including `hi`, in increasing order: `Run(0, n)` is
      `[1, 2, ..., n]`. */
  function Run(lo: nat, hi: nat): (r: seq<nat>)
    ensures |r| == if lo <= hi then hi - lo else 0
    ensures forall i :: 0 <= i < |r| ==> r[i] == lo + i + 1
    decreases hi - lo
  {
    if hi <= lo then [] else [lo + 1] + Run(lo + 1, hi)
  }

  /** Two runs, the second starting where the first ends, make one. */
  lemma RunAppend(lo: nat, mid: nat, hi: nat)
    requires lo <= mid <= hi
    ensures Run(lo, mid) + Run(mid, hi) == Run(lo, hi)
  {
  }

  /** A token of type `tt` numbered `k`, made when the counter of `t` goes from `lo` to `hi`:
      when `tt` is `t` it is the one number of the run, and otherwise the run is empty. */
  lemma RunOfToken(tt: string, k: nat, t: string, lo: nat, hi: nat)
    requires hi == if tt == t then lo + 1 else lo
    requires tt == t ==> k == lo + 1
    ensures (if tt == t then [k] else []) == Run(lo, hi)
  {
    assert Run(lo, lo) == [];
    if tt == t {
      assert Run(lo, lo + 1) == [lo + 1] + Run(lo + 1, lo + 1);
    }
  }

  lemma TokenNumbersOfToken(tt: string, n: nat, t: string, style: TokenStyle)
    ensures TokenNumbers(TokenNode(TokenText(tt, n, style)), t, style) == if tt == t then [n] else []
  {
    var leaf := Elem("text", None, Some(TokenText(tt, n, style)), []);
    TokenNodeNumber(tt, n, t, style);
    assert TokenNumbers(leaf, t, style) == [];
    assert TokenNumbersAll([leaf], t, style) == TokenNumbers(leaf, t, style) + TokenNumbersAll([], t, style);
  }

  // ---------------------------------------------------------------------------
  // No stray tokens in the input
  // ---------------------------------------------------------------------------

  /** No type-`t` token shape in any part of `n` that the rewrite keeps. A `block_text`
      holding exactly a token's text already in the input would be kept and counted
      alongside the tokens the rewrite makes; mistune writes `block_text` only inside list
      items, which the rewrite replaces whole. */
  predicate Clean(n: Node, v: Verbosity, t: string, style: TokenStyle)
    decreases n
  {
    if n.Pruned? || PrunedHeading(n, v) then true
    else if TokenNumberOf(n, t, style).Some? then false
    else if n.kind == "paragraph" && AllText(n.children) then true
    else if n.kind == "list" then Unnumbered(n.children, t, style)
    else if WholesaleToken(n.kind).Some? || n.kind == "blank_line" then true
    else CleanAll(n.children, v, t, style)
  }

  predicate CleanAll(xs: seq<Node>, v: Verbosity, t: string, style: TokenStyle)
    decreases xs
  {
    forall i :: 0 <= i < |xs| ==> Clean(xs[i], v, t, style)
  }

  /** An input with no `block_text` at all holds no token shape. */
  predicate NoBlockText(n: Node)
    decreases n
  {
    n.Pruned? ||
    (n.kind != "block_text" && forall i :: 0 <= i < |n.children| ==> NoBlockText(n.children[i]))
  }

  lemma {:induction false} NoBlockTextClean(n: Node, v: Verbosity, t: string, style: TokenStyle)
    requires NoBlockText(n)
    ensures TokenNumbers(n, t, style) == []
    ensures Clean(n, v, t, style)
    decreases n
  {
    if n.Elem? {
      forall i | 0 <= i < |n.children|
        ensures TokenNumbers(n.children[i], t, style) == [] && Clean(n.children[i], v, t, style)
      {
        NoBlockTextClean(n.children[i], v, t, style);
      }
      NoBlockTextAll(n.children, t, style);
    }
  }

  lemma {:induction false} NoBlockTextAll(xs: seq<Node>, t: string, style: TokenStyle)
    requires forall i :: 0 <= i < |xs| ==> TokenNumbers(xs[i], t, style) == []
    ensures TokenNumbersAll(xs, t, style) == []
    decreases xs
  {
    if |xs| > 0 {
      NoBlockTextAll(xs[1..], t, style);
    }
  }

  // ---------------------------------------------------------------------------
  // The rewrite numbers tokens consecutively
  // ---------------------------------------------------------------------------

  /** A text leaf is kept as it is, and nothing else becomes one. */
  lemma RewriteTextLeaf(x: Node, o: Options, c: Counters)
    requires Input(x)
    ensures TextLeaf(Rewrite(x, o, c).node) <==> TextLeaf(x)
    ensures TextLeaf(x) ==> Rewrite(x, o, c).node == x
  {
    if x.kind == "text" {
      var kids := RewriteAll(x.children, o, c);
      assert Rewrite(x, o, c).node == x.(children := kids.nodes);
    }
  }

  /** Keeping a node and rewriting its children does not make it a token or stop it being
      one. */
  lemma KeptTokenShape(n: Node, o: Options, c: Counters, t: string)
    requires Input(n)
    ensures TokenNumberOf(n.(children := RewriteAll(n.children, o, c).nodes), t, o.style) ==
              TokenNumberOf(n, t, o.style)
  {
    if |n.children| == 1 {
      RewriteTextLeaf(n.children[0], o, c);
      assert RewriteAll(n.children, o, c).nodes == [Rewrite(n.children[0], o, c).node];
    }
  }

  /** The type-`t` numbers in a rewritten node are exactly those the rewrite issued: the run
      from the counter on entry to the counter on exit. */
  lemma {:induction false} RewriteNumbers(n: Node, o: Options, c: Counters, t: string)
    requires Input(n) && Clean(n, o.verbosity, t, o.style)
    ensures TokenNumbers(Rewrite(n, o, c).node, t, o.style) ==
              Run(Count(c, t), Count(Rewrite(n, o, c).counters, t))
    decreases n, 1
  {
    var v, style := o.verbosity, o.style;
    var r := Rewrite(n, o, c);
    if PrunedHeading(n, v) {
      assert r == Emitted(Pruned, c);
      assert Run(Count(c, t), Count(c, t)) == [];
    } else if n.kind == "heading" || (n.kind == "paragraph" && !AllText(n.children)) {
      var kids := RewriteAll(n.children, o, c);
      assert r == Emitted(n.(children := kids.nodes), kids.counters);
      KeptNumbers(n, o, c, t);
    } else if n.kind == "paragraph" {
      assert r == MakeToken("Paragraph", style, c);
      TokenRun("Paragraph", style, c, t);
    } else if n.kind == "list" {
      var kids := ListChildren(n.children, style, c);
      assert r == Emitted(n.(children := kids.nodes), kids.counters);
      assert TokenNumbers(r.node, t, style) == TokenNumbersAll(kids.nodes, t, style);
      ListNumbers(n.children, style, c, t);
    } else if WholesaleToken(n.kind).Some? {
      var tt := WholesaleToken(n.kind).value;
      assert r == MakeToken(tt, style, c);
      TokenRun(tt, style, c, t);
    } else if n.kind == "blank_line" {
      assert r == Emitted(Elem("blank_line", None, None, []), c);
      assert Run(Count(c, t), Count(c, t)) == [];
    } else {
      var kids := RewriteAll(n.children, o, c);
      assert r == Emitted(n.(children := kids.nodes), kids.counters);
      KeptNumbers(n, o, c, t);
    }
  }

  /** A token made by `MakeToken` carries the run its counter moved by. */
  lemma TokenRun(tt: string, style: TokenStyle, c: Counters, t: string)
    ensures TokenNumbers(MakeToken(tt, style, c).node, t, style) ==
              Run(Count(c, t), Count(MakeToken(tt, style, c).counters, t))
  {
    var r := MakeToken(tt, style, c);
    var k := Count(c, tt) + 1;
    assert Count(r.counters, t) == if tt == t then Count(c, t) + 1 else Count(c, t);
    TokenNumbersOfToken(tt, k, t, style);
    RunOfToken(tt, k, t, Count(c, t), Count(r.counters, t));
  }

  /** A node kept with its children rewritten: its numbers are its children's. */
  lemma {:induction false} KeptNumbers(n: Node, o: Options, c: Counters, t: string)
    requires Input(n) && TokenNumberOf(n, t, o.style).None?
    requires CleanAll(n.children, o.verbosity, t, o.style)
    ensures TokenNumbers(n.(children := RewriteAll(n.children, o, c).nodes), t, o.style) ==
              Run(Count(c, t), Count(RewriteAll(n.children, o, c).counters, t))
    decreases n, 0
  {
    var kids := RewriteAll(n.children, o, c).nodes;
    KeptTokenShape(n, o, c, t);
    assert TokenNumbers(n.(children := kids), t, o.style) == TokenNumbersAll(kids, t, o.style);
    RewriteAllNumbers(n.children, o, c, t);
  }

  lemma {:induction false} RewriteAllNumbers(xs: seq<Node>, o: Options, c: Counters, t: string)
    requires InputAll(xs) && CleanAll(xs, o.verbosity, t, o.style)
    ensures TokenNumbersAll(RewriteAll(xs, o, c).nodes, t, o.style) ==
              Run(Count(c, t), Count(RewriteAll(xs, o, c).counters, t))
    decreases xs, 2
  {
    if |xs| > 0 {
      var first := Rewrite(xs[0], o, c);
      var rest := RewriteAll(xs[1..], o, first.counters);
      CleanAllTail(xs, o.verbosity, t, o.style);
      RewriteAllStep(xs, o, c, t);
      RewriteNumbers(xs[0], o, c, t);
      RewriteAllNumbers(xs[1..], o, first.counters, t);
      RunAppend(Count(c, t), Count(first.counters, t), Count(rest.counters, t));
    }
  }

  lemma CleanAllTail(xs: seq<Node>, v: Verbosity, t: string, style: TokenStyle)
    requires |xs| > 0 && CleanAll(xs, v, t, style)
    ensures Clean(xs[0], v, t, style) && CleanAll(xs[1..], v, t, style)
    ensures InputAll(xs) ==> Input(xs[0]) && InputAll(xs[1..])
  {
    forall i | 0 <= i < |xs[1..]| ensures xs[1..][i] == xs[i + 1] { }
  }

  /** One step of the walk over siblings: the first child's numbers, then the rest's, which
      start from the counters the first child left. */
  lemma RewriteAllStep(xs: seq<Node>, o: Options, c: Counters, t: string)
    requires InputAll(xs) && |xs| > 0
    ensures var first := Rewrite(xs[0], o, c);
            var rest := RewriteAll(xs[1..], o, first.counters);
            && TokenNumbersAll(RewriteAll(xs, o, c).nodes, t, o.style) ==
                 TokenNumbers(first.node, t, o.style) + TokenNumbersAll(rest.nodes, t, o.style)
            && RewriteAll(xs, o, c).counters == rest.counters
  {
    var first := Rewrite(xs[0], o, c);
    var rest := RewriteAll(xs[1..], o, first.counters);
    var out := RewriteAll(xs, o, c).nodes;
    assert out == [first.node] + rest.nodes;
    assert out[0] == first.node && out[1..] == rest.nodes;
  }

  /** The `Item` tokens of a list carry the run of the `Item` counter; the other children,
      kept as they are, carry no number. */
  lemma {:induction false} ListNumbers(xs: seq<Node>, style: TokenStyle, c: Counters, t: string)
    requires InputAll(xs)
    requires Unnumbered(xs, t, style)
    ensures TokenNumbersAll(ListChildren(xs, style, c).nodes, t, style) ==
              Run(Count(c, t), Count(ListChildren(xs, style, c).counters, t))
    decreases xs
  {
    if |xs| > 0 {
      var first := ListHead(xs[0], style, c);
      var rest := ListChildren(xs[1..], style, first.counters);
      ListHeadNumbers(xs[0], style, c, t);
      UnnumberedTail(xs, t, style);
      ListChildrenStep(xs, style, c, t);
      ListNumbers(xs[1..], style, first.counters, t);
      assert Count(first.counters, t) <= Count(rest.counters, t);
      RunAppend(Count(c, t), Count(first.counters, t), Count(rest.counters, t));
    }
  }

  /** No child but a list item carries a number. */
  predicate Unnumbered(xs: seq<Node>, t: string, style: TokenStyle) {
    forall i :: 0 <= i < |xs| && !IsListItem(xs[i]) ==> TokenNumbers(xs[i], t, style) == []
  }

  lemma UnnumberedTail(xs: seq<Node>, t: string, style: TokenStyle)
    requires |xs| > 0 && Unnumbered(xs, t, style)
    ensures Unnumbered(xs[1..], t, style)
  {
    forall i | 0 <= i < |xs[1..]| ensures xs[1..][i] == xs[i + 1] { }
  }

  /** What the list walk makes of one child. */
  function ListHead(x: Node, style: TokenStyle, c: Counters): Emitted
    requires x.Elem?
  {
    if x.kind == "list_item" then MakeToken("Item", style, c) else Emitted(x, c)
  }

  lemma ListHeadNumbers(x: Node, style: TokenStyle, c: Counters, t: string)
    requires Input(x)
    requires !IsListItem(x) ==> TokenNumbers(x, t, style) == []
    ensures Count(c, t) <= Count(ListHead(x, style, c).counters, t)
    ensures TokenNumbers(ListHead(x, style, c).node, t, style) ==
              Run(Count(c, t), Count(ListHead(x, style, c).counters, t))
  {
    if IsListItem(x) {
      TokenRun("Item", style, c, t);
    } else {
      assert ListHead(x, style, c) == Emitted(x, c);
      assert Run(Count(c, t), Count(c, t)) == [];
    }
  }

  lemma ListChildrenStep(xs: seq<Node>, style: TokenStyle, c: Counters, t: string)
    requires InputAll(xs) && |xs| > 0
    ensures var first := ListHead(xs[0], style, c);
            var rest := ListChildren(xs[1..], style, first.counters);
            && TokenNumbersAll(ListChildren(xs, style, c).nodes, t, style) ==
                 TokenNumbers(first.node, t, style) + TokenNumbersAll(rest.nodes, t, style)
            && ListChildren(xs, style, c).counters == rest.counters
  {
    var first := ListHead(xs[0], style, c);
    var rest := ListChildren(xs[1..], style, first.counters);
    var out := ListChildren(xs, style, c).nodes;
    assert out == [first.node] + rest.nodes;
    assert out[0] == first.node && out[1..] == rest.nodes;
  }

  /** The numbers of each token type in the templated document are exactly 1, 2, ..., N in
      document order, N being the count of that type: no number skipped, none repeated. */
  lemma TemplatifyNumbering(ast: seq<Node>, o: Options, t: string)
    requires InputAll(ast) && CleanAll(ast, o.verbosity, t, o.style)
    ensures TokenNumbersAll(Templatify(ast, o), t, o.style) ==
              Run(0, TemplatifyProperties.DemandAll(ast, o.verbosity, t))
  {
    RewriteAllNumbers(ast, o, map[], t);
    TemplatifyProperties.TemplatifyCounts(ast, o);
  }

  /** The same for any parse with no `block_text` anywhere, such as a document of headings,
      paragraphs and code blocks. */
  lemma TemplatifyNumberingPlain(ast: seq<Node>, o: Options, t: string)
    requires InputAll(ast) && forall i :: 0 <= i < |ast| ==> NoBlockText(ast[i])
    ensures TokenNumbersAll(Templatify(ast, o), t, o.style) ==
              Run(0, TemplatifyProperties.DemandAll(ast, o.verbosity, t))
  {
    forall i | 0 <= i < |ast| ensures Clean(ast[i], o.verbosity, t, o.style) {
      NoBlockTextClean(ast[i], o.verbosity, t, o.style);
    }
    TemplatifyNumbering(ast, o, t);
  }
}

=== FILE: templatify_props.dfy ===
/** What the templatifier guarantees: tokens are uniquely labelled, every counter advances by
    exactly the number of tokens of its type, numbering follows document order, and the
    rewritten tree holds nothing that should have become a token. */
module TemplatifyProperties {
  import opened Wrappers
  import PyString
  import Ascii
  import opened MarkdownTemplatify

  // ---------------------------------------------------------------------------
  // Token labels are unambiguous
  // ---------------------------------------------------------------------------

  /** Two labels `"T n"` agree only for the same type and number: the number is the
      digits after the last blank, whatever the type name holds. */
  lemma LabelInjective(t1: string, n1: nat, t2: string, n2: nat)
    requires Label(t1, n1) == Label(t2, n2)
    ensures t1 == t2 && n1 == n2
  {
    var l := Label(t1, n1);
    var d1, d2 := PyString.Decimal(n1), PyString.Decimal(n2);
    assert l == t1 + " " + d1 && l == t2 + " " + d2;
    assert forall j :: |t1| < j < |l| ==> l[j] == d1[j - |t1| - 1] != ' ';
    assert forall j :: |t2| < j < |l| ==> l[j] == d2[j - |t2| - 1] != ' ';
    assert l[|t1|] == ' ' && l[|t2|] == ' ';
    assert |t1| == |t2|;
    assert t1 == l[..|t1|] == t2;
    assert d1 == l[|t1| + 1..] == d2;
    PyString.DecimalInjective(n1, n2);
  }

  /** Within one style, equal token texts mean equal type and number: no two tokens a
      traversal emits can be confused with each other. */
  lemma TokenTextInjective(t1: string, n1: nat, t2: string, n2: nat, style: TokenStyle)
    requires TokenText(t1, n1, style) == TokenText(t2, n2, style)
    ensures t1 == t2 && n1 == n2
  {
    var x := TokenText(t1, n1, style);
    var l1, l2 := Label(t1, n1), Label(t2, n2);
    assert x[0] == (if t1 == "Code" then '`' else if style == Curly then '{' else '[');
    assert x[0] == (if t2 == "Code" then '`' else if style == Curly then '{' else '[');
    if t1 == "Code" && t2 == "Code" {
      assert l1 == x[5..|x| - 5] == l2;
    } else if t1 == "Code" || t2 == "Code" {
      assert false;
    } else if style == Curly {
      assert l1 == x[2..|x| - 2] == l2;
    } else {
      assert l1 == x[1..|x| - 1] == l2;
    }
    LabelInjective(t1, n1, t2, n2);
  }

  /** `table` and `block_quote` tokens are named by Python's `capitalize`. */
  lemma WholesaleTokenNames()
    ensures WholesaleToken("block_code") == Some("Code")
    ensures WholesaleToken("image") == Some("Image")
    ensures WholesaleToken("link") == Some("Link")
    ensures WholesaleToken("table") == Some("Table")
    ensures WholesaleToken("block_quote") == Some("Block_quote")
  {
    CapitalizeTable();
    CapitalizeBlockQuote();
  }

  lemma CapitalizeTable()
    ensures PyString.Capitalize("table") == "Table"
  {
    Ascii.LowerWithoutUpper("able");
  }

  lemma CapitalizeBlockQuote()
    ensures PyString.Capitalize("block_quote") == "Block_quote"
  {
    Ascii.LowerWithoutUpper("lock_quote");
  }

  // ---------------------------------------------------------------------------
  // Counters advance by exactly the tokens emitted
  // ---------------------------------------------------------------------------

  /** How many tokens of type `t` rewriting `n` calls for, read off the input tree alone. */
  function Demand(n: Node, v: Verbosity, t: string): nat
    decreases n
  {
    if n.Pruned? || PrunedHeading(n, v) then 0
    else if n.kind == "paragraph" && AllText(n.children) then (if t == "Paragraph" then 1 else 0)
    else if n.kind == "list" then (if t == "Item" then ItemCount(n.children) else 0)
    else if WholesaleToken(n.kind).Some? then (if t == WholesaleToken(n.kind).value then 1 else 0)
    else if n.kind == "blank_line" then 0
    else DemandAll(n.children, v, t)
  }

  function DemandAll(xs: seq<Node>, v: Verbosity, t: string): nat
    decreases xs
  {
    if |xs| == 0 then 0 else Demand(xs[0], v, t) + DemandAll(xs[1..], v, t)
  }

  /** Rewriting a node raises the counter of each type by exactly the number of tokens of
      that type the node calls for, and leaves every other counter alone. */
  lemma {:induction false} RewriteCounts(n: Node, o: Options, c: Counters)
    requires Input(n)
    ensures forall t :: Count(Rewrite(n, o, c).counters, t) == Count(c, t) + Demand(n, o.verbosity, t)
    decreases n
  {
    if n.kind == "heading" && !PrunedHeading(n, o.verbosity) {
      RewriteAllCounts(n.children, o, c);
    } else if n.kind == "paragraph" && !AllText(n.children) {
      RewriteAllCounts(n.children, o, c);
    } else if n.kind !in {"heading", "paragraph", "list", "blank_line"} && WholesaleToken(n.kind).None? {
      RewriteAllCounts(n.children, o, c);
    }
  }

  lemma {:induction false} RewriteAllCounts(xs: seq<Node>, o: Options, c: Counters)
    requires InputAll(xs)
    ensures forall t :: Count(RewriteAll(xs, o, c).counters, t) == Count(c, t) + DemandAll(xs, o.verbosity, t)
    decreases xs
  {
    if |xs| > 0 {
      var first := Rewrite(xs[0], o, c);
      RewriteCounts(xs[0], o, c);
      RewriteAllCounts(xs[1..], o, first.counters);
    }
  }

  /** Counters start empty on every call, so the last number issued for each type is the
      number of tokens of that type in the document. */
  lemma TemplatifyCounts(ast: seq<Node>, o: Options)
    requires InputAll(ast)
    ensures forall t :: Count(RewriteAll(ast, o, map[]).counters, t) == DemandAll(ast, o.verbosity, t)
  {
    RewriteAllCounts(ast, o, map[]);
  }

  // ---------------------------------------------------------------------------
  // Document order
  // ---------------------------------------------------------------------------

  lemma InputAllAppend(xs: seq<Node>, ys: seq<Node>)
    requires InputAll(xs) && InputAll(ys)
    ensures InputAll(xs + ys)
  {
    forall i | 0 <= i < |xs + ys| ensures Input((xs + ys)[i]) {
      if i < |xs| { assert (xs + ys)[i] == xs[i]; } else { assert (xs + ys)[i] == ys[i - |xs|]; }
    }
  }

  /** Rewriting `xs + ys` rewrites `xs` first and then `ys` from the counters `xs` left:
      tokens in a later sibling are numbered after all tokens of an earlier one. */
  lemma {:induction false} RewriteAllAppend(xs: seq<Node>, ys: seq<Node>, o: Options, c: Counters)
    requires InputAll(xs) && InputAll(ys) && InputAll(xs + ys)
    ensures RewriteAll(xs + ys, o, c).nodes ==
              RewriteAll(xs, o, c).nodes + RewriteAll(ys, o, RewriteAll(xs, o, c).counters).nodes
    ensures RewriteAll(xs + ys, o, c).counters ==
              RewriteAll(ys, o, RewriteAll(xs, o, c).counters).counters
    decreases xs
  {
    var zs := xs + ys;
    if |xs| == 0 {
      assert zs == ys;
      var b := RewriteAll(ys, o, c);
      assert RewriteAll(xs, o, c) == EmittedAll([], c);
      assert [] + b.nodes == b.nodes;
    } else {
      var first := Rewrite(xs[0], o, c);
      var a := RewriteAll(xs[1..], o, first.counters);
      var b := RewriteAll(ys, o, a.counters);
      assert RewriteAll(xs, o, c) == EmittedAll([first.node] + a.nodes, a.counters);
      assert RewriteAll(zs, o, c) == EmittedAll([first.node] + (a.nodes + b.nodes), b.counters) by {
        assert zs[0] == xs[0];
        assert zs[1..] == xs[1..] + ys;
        InputAllAppend(xs[1..], ys);
        RewriteAllAppend(xs[1..], ys, o, first.counters);
      }
      assert RewriteAll(ys, o, RewriteAll(xs, o, c).counters) == b;
      calc {
        RewriteAll(zs, o, c).nodes;
        [first.node] + (a.nodes + b.nodes);
        ([first.node] + a.nodes) + b.nodes;
        RewriteAll(xs, o, c).nodes + b.nodes;
      }
    }
  }

  /** The i-th child of a list, when it is a list item, becomes the `Item` token numbered
      one past the counter on entry plus the items before it. */
  lemma {:induction false} ListItemsNumbered(xs: seq<Node>, style: TokenStyle, c: Counters, i: nat)
    requires InputAll(xs)
    requires i < |xs| && IsListItem(xs[i])
    ensures ListChildren(xs, style, c).nodes[i] ==
              TokenNode(TokenText("Item", Count(c, "Item") + ItemCount(xs[..i + 1]), style))
    decreases i
  {
    if i == 0 {
      ListItemFirst(xs, style, c);
    } else {
      var first := if xs[0].kind == "list_item" then MakeToken("Item", style, c) else Emitted(xs[0], c);
      ListItemsNumbered(xs[1..], style, first.counters, i - 1);
      ListItemLater(xs, style, c, i);
    }
  }

  /** A list item at the head of the list becomes the next `Item` token. */
  lemma ListItemFirst(xs: seq<Node>, style: TokenStyle, c: Counters)
    requires InputAll(xs) && 0 < |xs| && IsListItem(xs[0])
    ensures ListChildren(xs, style, c).nodes[0] ==
              TokenNode(TokenText("Item", Count(c, "Item") + ItemCount(xs[..1]), style))
  {
    ItemCountPrefix(xs, 0);
    assert xs[1..][..0] == [];
    ListChildrenUnfold(xs, style, c, 0);
  }

  /** A later position carries the number the rest of the list gives it, shifted by the
      head's contribution to the counter. */
  lemma ListItemLater(xs: seq<Node>, style: TokenStyle, c: Counters, i: nat)
    requires InputAll(xs) && 0 < i < |xs|
    requires var first := if xs[0].kind == "list_item" then MakeToken("Item", style, c) else Emitted(xs[0], c);
             ListChildren(xs[1..], style, first.counters).nodes[i - 1] ==
               TokenNode(TokenText("Item", Count(first.counters, "Item") + ItemCount(xs[1..][..i]), style))
    ensures ListChildren(xs, style, c).nodes[i] ==
              TokenNode(TokenText("Item", Count(c, "Item") + ItemCount(xs[..i + 1]), style))
  {
    ItemCountPrefix(xs, i);
    ListChildrenUnfold(xs, style, c, i);
  }

  lemma ItemCountPrefix(xs: seq<Node>, i: nat)
    requires i < |xs|
    ensures ItemCount(xs[..i + 1]) == (if IsListItem(xs[0]) then 1 else 0) + ItemCount(xs[1..][..i])
  {
    assert xs[..i + 1][1..] == xs[1..][..i];
  }

  /** One step of the list walk: position 0 is the first child's result, later positions come
      from the rest, which starts from the counters the first child left. */
  lemma ListChildrenUnfold(xs: seq<Node>, style: TokenStyle, c: Counters, i: nat)
    requires InputAll(xs) && i < |xs|
    ensures var first := if xs[0].kind == "list_item" then MakeToken("Item", style, c) else Emitted(xs[0], c);
            && Count(first.counters, "Item") == Count(c, "Item") + (if IsListItem(xs[0]) then 1 else 0)
            && ListChildren(xs, style, c).nodes[i] ==
                 if i == 0 then first.node else ListChildren(xs[1..], style, first.counters).nodes[i - 1]
  {
  }

  // ---------------------------------------------------------------------------
  // Nothing left to templatify
  // ---------------------------------------------------------------------------

  predicate NotText(m: Node) {
    m.Pruned? || m.kind != "text"
  }

  /** A rewritten tree: no node that should have become a token, every surviving paragraph
      has inline markup, outline mode keeps no heading deeper than 3, and no list keeps a
      list item. Children of a list are not looked into, as the rewrite does not enter them. */
  predicate Templated(m: Node, v: Verbosity)
    decreases m
  {
    m.Pruned? ||
    (&& WholesaleToken(m.kind).None?
     && (m.kind == "heading" && v == Outline ==> Level(m) <= 3)
     && (m.kind == "paragraph" ==> exists i :: 0 <= i < |m.children| && NotText(m.children[i]))
     && (m.kind == "list" ==> forall i :: 0 <= i < |m.children| ==> !IsListItem(m.children[i]))
     && (m.kind != "list" ==> forall i :: 0 <= i < |m.children| ==> Templated(m.children[i], v)))
  }

  lemma TokenTemplated(text: string, v: Verbosity)
    ensures Templated(TokenNode(text), v)
  {
    assert Templated(TokenNode(text).children[0], v);
  }

  /** Position by position, a rewritten child is `None` exactly when it was a pruned heading,
      and otherwise keeps its kind unless it became a token; a kept child other than a blank
      line differs from the original only in its children, of which it has as many. */
  lemma {:induction false} RewriteAllPositions(xs: seq<Node>, o: Options, c: Counters, i: nat)
    requires InputAll(xs) && i < |xs|
    ensures RewriteAll(xs, o, c).nodes[i].Pruned? <==> PrunedHeading(xs[i], o.verbosity)
    ensures RewriteAll(xs, o, c).nodes[i].Elem? ==>
              RewriteAll(xs, o, c).nodes[i].kind == xs[i].kind || RewriteAll(xs, o, c).nodes[i].kind == "block_text"
    ensures var m := RewriteAll(xs, o, c).nodes[i];
            m.Elem? && m.kind == xs[i].kind && xs[i].kind != "blank_line" ==>
              m == xs[i].(children := m.children) && |m.children| == |xs[i].children|
    decreases i
  {
    var first := Rewrite(xs[0], o, c);
    if i > 0 {
      RewriteAllPositions(xs[1..], o, first.counters, i - 1);
    }
  }

  lemma {:induction false} RewriteTemplated(n: Node, o: Options, c: Counters)
    requires Input(n)
    ensures Templated(Rewrite(n, o, c).node, o.verbosity)
    decreases n
  {
    var r := Rewrite(n, o, c);
    var v := o.verbosity;
    if PrunedHeading(n, v) {
    } else if n.kind == "heading" {
      RewriteAllTemplated(n.children, o, c);
    } else if n.kind == "paragraph" {
      if AllText(n.children) {
        TokenTemplated(TokenText("Paragraph", r.counters["Paragraph"], o.style), v);
      } else {
        var i :| 0 <= i < |n.children| && !(n.children[i].Elem? && n.children[i].kind == "text");
        RewriteAllPositions(n.children, o, c, i);
        RewriteAllTemplated(n.children, o, c);
      }
    } else if n.kind == "list" {
    } else if WholesaleToken(n.kind).Some? {
      var t := WholesaleToken(n.kind).value;
      TokenTemplated(TokenText(t, r.counters[t], o.style), v);
    } else if n.kind == "blank_line" {
    } else {
      RewriteAllTemplated(n.children, o, c);
    }
  }

  lemma {:induction false} RewriteAllTemplated(xs: seq<Node>, o: Options, c: Counters)
    requires InputAll(xs)
    ensures forall i :: 0 <= i < |xs| ==> Templated(RewriteAll(xs, o, c).nodes[i], o.verbosity)
    decreases xs
  {
    if |xs| > 0 {
      var first := Rewrite(xs[0], o, c);
      RewriteTemplated(xs[0], o, c);
      RewriteAllTemplated(xs[1..], o, first.counters);
    }
  }

  /** The top-level result of `templatify` is fully templated. */
  lemma TemplatifyTemplated(ast: seq<Node>, o: Options)
    requires InputAll(ast)
    ensures forall i :: 0 <= i < |ast| ==> Templated(Templatify(ast, o)[i], o.verbosity)
  {
    RewriteAllTemplated(ast, o, map[]);
  }
}

=== FILE: wrappers.dfy ===
/** The optional and fallible values shared by the model: `Option` stands for a value that may be
    missing (Python's `None`, JavaScript's `null`), `Result` for an operation that may reject. */
module Wrappers {

  datatype Option<+T> = None | Some(value: T) {

    /** The wrapped value, or `default` when there is none. */
    function GetOr(default: T): T {
      match this
      case Some(v) => v
      case None => default
    }
  }

  datatype Result<+R, +E> = Success(value: R) | Failure(error: E)
}
